=== FILE: README.md ===
# ugoira-play frame playback, modelled in Dafny

`ugoira-play` plays a Pixiv "ugoira" animation. It reads a zip archive
holding one image per frame plus an `animation.json` manifest with
per-frame delays. Playback cycles through the frames in an SDL window.
This project models the core of the program as pure functions over
immutable values and proves properties about them:

- `node_list.dfy` (module `NodeList`): the doubly-linked list of
  `src/list.c` as an index-based arena, a `seq` of nodes whose
  `prev`/`next` are `Option<nat>` positions. It covers `list_create`,
  `list_insert_after`, `list_head` and `list_last`. It also defines
  well-formedness (links are ordered and mutually inverse) and `Chain`,
  the shape ingestion builds.
- `frames.dfy` (module `Frames`): the `Frame` record and, from
  `frame.c`, `frame_create`, `frame_destroy` and `get_frame_with_filename`.
- `manifest.dfy` (module `Manifest`): `get_frame_durations` over an
  already-parsed manifest. It is modelled both as written and with a miss
  skipped, plus a reference definition of the resulting durations.
- `archive.dfy` (module `Archive`): `read_archive_entry` with its chunked
  copy loop, and `read_whole_archive`, which partitions the entries into
  the manifest and the frames.
- `playback.dfy` (module `Playback`): from `src/main.c`:
  - `generate_texture` and its dirty flag;
  - `switch_filtering_mode`;
  - the key handlers;
  - the per-iteration tick of the event loop, with its playback and
    redraw cursors;
  - teardown on quit;
  - derivation of the manifest path from the archive path.
- `wrappers.dfy` (module `Wrappers`): `Option` and `Result`.

The model replaces external libraries and the environment with values:

- Each archive entry is given as its path, its declared size, and the byte
  chunks that successive reads return. Reader set-up and file opening are
  given as booleans.
- The manifest arrives as parsed JSON values.
- The tick count is a parameter of each tick.
- The outcome of decoding an image arrives with each tick: RWops failure,
  decode failure, or a new texture handle.
- The strings of the C code (paths, frame names, the render-scale hint)
  are byte sequences. Lengths count bytes, as `strlen` does, and
  comparisons are byte by byte, as `strcmp` does.
- Teardown returns the memory it frees and the textures it destroys as a
  log of `Resource` values. Texture generation returns the texture it
  destroys, and each tick reports that texture.

The tick reports what the program destroys as written. Once the read
stream exists, the old texture is destroyed, even when the decode then
fails and leaves it installed (see Findings). The frames a tick leaves are
the same under the corrected generation, which differs only in destroying
the old texture after a successful decode.

## Model

| member | source | states |
|---|---|---|
| NodeList.Create | ugoira-play/src/list.c:13-22 | The new node gets a fresh position. It has no predecessor and no successor, and it holds the given payload. Every existing node is unchanged. |
| NodeList.InsertAfter | ugoira-play/src/list.c:24-32 | The new node becomes `n`'s successor, with `n` as its predecessor and no successor of its own. `n` keeps its predecessor and payload. Every other node is unchanged, so whatever followed `n` before still names `n` as its predecessor. |
| NodeList.Head | ugoira-play/src/list.c:34-45 | NULL maps to NULL. Otherwise the result is a node without predecessor, reached from `n` by following `prev` links. |
| NodeList.Last | ugoira-play/src/list.c:47-58 | NULL maps to NULL. Otherwise the result is a node without successor, reached from `n` by following `next` links. |
| NodeList.CreateKeepsWellFormed | ugoira-play/src/list.c:13-22 | A created node keeps the arena well formed, and the node is its own head and its own tail. |
| NodeList.InsertAfterKeepsOrdered | ugoira-play/src/list.c:24-32 | Inserting keeps every `prev` pointing backwards and every `next` pointing forwards in the arena. |
| NodeList.InsertAfterWellFormedIffTail | ugoira-play/src/list.c:24-32 | Starting from a well-formed list, the list after an insertion is well formed if and only if `n` had no successor. This is the condition the caller asserts. |
| NodeList.HeadLastIdempotent | ugoira-play/src/list.c:34-58 | Taking the head of the head, or the last of the last, changes nothing. |
| NodeList.ChainHead | ugoira-play/src/list.c:34-45 | In a list built by appending, the head of every node is the first node. |
| NodeList.ChainLast | ugoira-play/src/list.c:47-58 | In a list built by appending, the last node reached from every node is the newest node. |
| NodeList.Walk | ugoira-play/frame.c:53-63 | The forward traversal starts at `n`. Each visited node's `next` is the following visited node, and the traversal ends at a node whose `next` is NULL. |
| NodeList.ChainWalk | ugoira-play/src/archive.c:108-115 | On a list built by appending, walking forward from node `i` visits `i`, `i+1`, …, the newest node, in that order. |
| NodeList.BuildChain | ugoira-play/src/archive.c:108-115 | One `list_create` followed by insertions at the tail produces a chain whose payloads are in insertion order. |
| NodeList.ChainIsWellFormed | ugoira-play/src/archive.c:108-115 | A list built by appending is well formed. |
| NodeList.TailInsertions | ugoira-play/src/list.c:13-58 | After k tail insertions into one created node: the list is well formed; the head from any node is the original node; the last from any node is the newest; exactly k+1 nodes are reachable forward from the head, carrying the payloads in insertion order. |
| Frames.FrameCreate | ugoira-play/frame.c:14-28 | A new frame is named "undefined" (which fits the 11-byte buffer). It is dirty, has duration 0, no image, image size 0 and no texture. |
| Frames.ReleaseFields | ugoira-play/frame.c:32-40 | The image is freed only if it is present and the texture destroyed only if it is present, each exactly once, and both fields end NULL. Name, duration, dirty flag and size are kept. |
| Frames.FrameDestroy | ugoira-play/frame.c:30-44 | Each resource the frame owns is released exactly once (its image if present, its texture if present, and the record itself, last). Nothing else is released. |
| Frames.ReleaseFieldsIdempotent | ugoira-play/frame.c:32-40 | Releasing the fields a second time releases nothing: no field is released twice. |
| Frames.FindFrom | ugoira-play/frame.c:53-65 | A found node exists and carries the queried name. Starting from NULL finds nothing. |
| Frames.GetFrameWithFilename | ugoira-play/frame.c:46-65 | A found node exists and carries the queried name. A NULL start finds nothing. |
| Frames.FindFromIsFirstMatch | ugoira-play/frame.c:53-65 | The scan returns the first node of the forward walk whose name equals the query, and returns NULL if and only if no node on the walk has that name. |
| Frames.LookupIsFirstMatch | ugoira-play/frame.c:46-65 | The lookup returns the first node, in head-to-tail order, whose name equals the query, or NULL when no node of the list has it. |
| Frames.LookupFromAnyNode | ugoira-play/frame.c:46-48 | Because the lookup rewinds first, it gives the same answer from every node of a frame sequence. |
| Frames.LookupIgnoresPayload | ugoira-play/frame.c:46-65 | Changing durations, images, textures or dirty flags never changes what a lookup returns. |
| Manifest.Truncate16 | ugoira-play/frame.c:146 | The `(uint16_t)` cast keeps values below 2^16 and otherwise reduces modulo 2^16. |
| Manifest.ProcessedRecords | ugoira-play/frame.c:123-143 | Returns the records before the first one that is not an object, lacks a string "file", or lacks an integer "delay", in array order. That first bad record, if any, follows them. |
| Manifest.LastDelay | ugoira-play/frame.c:145-156 | Returns a delay if and only if some record names the file. The delay is that of the last record naming it: no later record names the file. |
| Manifest.SetDuration | ugoira-play/frame.c:155-156 | Only the duration of the chosen frame changes, to the given value. |
| Manifest.ApplyRecords | ugoira-play/frame.c:123-157 | The record loop, with a miss skipped, changes nothing but durations. |
| Manifest.GetFrameDurations | ugoira-play/frame.c:68-160 | Correlation changes nothing but durations. Unless the manifest loads, its root is an object and "frames" is an array, nothing changes at all. |
| Manifest.ApplyRecordsAsWritten | ugoira-play/frame.c:123-157 | The record loop, with the cursor overwritten by each lookup, changes nothing but durations. |
| Manifest.GetFrameDurationsAsWritten | ugoira-play/frame.c:68-160 | The same guarantees as the corrected function, for the code as written. |
| Manifest.CorrelationAssignsLastDelay | ugoira-play/frame.c:123-157 | For a name that has a frame, the first frame with that name gets the truncated delay of the last processed record naming it. Every other duration is kept, and records from the first malformed one on are ignored. |
| Manifest.AsWrittenMissIsSticky | ugoira-play/frame.c:148-153 | As written, once the cursor is NULL no later record changes anything. |
| Manifest.AsWrittenAgreesWithoutMiss | ugoira-play/frame.c:145-156 | As long as every processed record names an existing frame, the as-written loop and the corrected loop produce the same frames. |
| Manifest.MissSkipsLaterRecords | ugoira-play/frame.c:148-153 | Concrete case: after a record naming an absent file, the as-written loop leaves "a.png" at duration 0, while the corrected loop gives it 100. |
| Archive.Request | ugoira-play/src/archive.c:31-37 | Every read asks for the declared size or 4096 bytes, whichever is smaller. |
| Archive.ChunksRead | ugoira-play/src/archive.c:42-51 | The copy loop reads every chunk up to and including the first one shorter than the buffer, or all chunks if none is short. It reads none only when there is no data. |
| Archive.Copied | ugoira-play/src/archive.c:42-51 | The copied bytes are the chunks the loop reads, joined in order. The first read's bytes come first. |
| Archive.ExtractEntry | ugoira-play/src/archive.c:39-58 | The copy succeeds if and only if the bytes read number exactly the declared size. It then returns those bytes: the chunks read, joined in order. Otherwise the entry aborts with a size mismatch naming its path. |
| Archive.ReadArchiveEntry | ugoira-play/src/archive.c:23-59 | The copy loop appends chunks in order and stops after the first chunk shorter than the buffer. It succeeds if and only if the byte count equals the declared size, and then returns that many bytes. |
| Archive.SmallEntryReadsOnce | ugoira-play/src/archive.c:33-51 | An entry smaller than the buffer is copied by a single read. |
| Archive.CopiedBlocks | ugoira-play/src/archive.c:42-51 | Data delivered as full buffers followed by one short piece is reassembled exactly. |
| Archive.ExtractBlocksRoundTrip | ugoira-play/src/archive.c:23-59 | Round trip: an entry whose data arrives in buffer-sized reads yields exactly its bytes. |
| Archive.EntryFrame | ugoira-play/src/archive.c:104-106 | An entry's frame is a created frame named by the entry path, holding the copied bytes and the declared size. It is dirty, with duration 0 and no texture. |
| Archive.AppendFrame | ugoira-play/src/archive.c:108-115 | The first frame creates the list and later frames go after the tail. The list stays a chain whose payloads gain exactly the new frame at the end. |
| Archive.AppendKeepsChain | ugoira-play/src/archive.c:111-114 | Inserting after the tail extends the chain by one node. |
| Archive.IngestEntries | ugoira-play/src/archive.c:96-116 | On success, the frames built so far form an empty list or a chain whose first node is the start node and whose newest node is the current node. No frame is lost. |
| Archive.ReadWholeArchive | ugoira-play/src/archive.c:62-120 | A reader that cannot be created, set up for zip, or opened gives NULL. On success, the start node is NULL exactly when there are no frames; otherwise it is the first node of a chain. |
| Archive.IngestEntriesBuildsChain | ugoira-play/src/archive.c:96-116 | When every entry copies intact: ingestion succeeds; the frames are those of the non-manifest entries, in archive order; the manifest bytes are those of the last "animation.json" entry, or are unchanged when there is none. |
| Archive.IngestionBuildsFrames | ugoira-play/src/archive.c:62-120 | For an openable archive, there is one frame per non-manifest entry, in archive order. The start node is NULL exactly when there are no such entries. The manifest is the last "animation.json" entry. |
| Archive.IngestEntriesStopsAtMismatch | ugoira-play/src/archive.c:96-106 | The first entry whose copy does not match its declared size aborts ingestion, whether it is a frame or the manifest. |
| Archive.MismatchAbortsIngestion | ugoira-play/src/archive.c:53 | The archive-level result of a size mismatch is an abort naming the first bad entry. |
| Playback.GenerateTextureAsWritten | ugoira-play/src/main.c:24-52 | As written: only the texture field and the dirty flag change. The frame is clean if and only if the decode succeeded or it was already clean. The old texture is destroyed whenever the read stream exists, but it is replaced only on success. |
| Playback.GenerateTexture | ugoira-play/src/main.c:24-52 | Corrected: a failed attempt changes nothing and destroys nothing. A successful decode destroys the old texture, installs the new one and clears the flag. |
| Playback.DecodeFailureDestroysTwice | ugoira-play/src/main.c:38-48 | As written, two failed decodes destroy texture 7 twice and leave it installed. |
| Playback.RetryNeverDestroysTwice | ugoira-play/src/main.c:38-51 | With the corrected generation, any sequence of attempts destroys no texture twice. The installed texture was never destroyed, and every texture involved comes from the frame or from a decode. |
| Playback.Successor | ugoira-play/src/main.c:225-229 | The cursor step: a node with a successor moves to it. The tail moves to the head, a node without predecessor reached backwards from it. On a frame sequence this is position i+1, wrapping from the last position to the first. The same step advances `current` at lines 243-248. |
| Playback.Predecessor | ugoira-play/src/main.c:213-217 | The frame before a node: its predecessor if it has one. For the head it is the last node, a node without successor reached forwards from it. On a frame sequence this is position i−1, wrapping from the first position to the last. |
| Playback.EffectiveDuration | ugoira-play/src/main.c:218 | A stored duration of 0 becomes 1000 ms. Any other value is used as is, so the result is never 0. |
| Playback.TickDuration | ugoira-play/src/main.c:212-218 | Each tick consults the effective duration of the frame before `current` cyclically, that is, of the frame on screen. |
| Playback.RedrawAt | ugoira-play/src/main.c:220-223 | Only the redraw cursor's frame can change, and only if it is dirty, and then by texture generation. The frame left is the same under the generation as written and the corrected one. Links are kept. |
| Playback.Tick | ugoira-play/src/main.c:212-251 | Every tick, paused or not, regenerates the redraw frame and moves the redraw cursor cyclically. If the advance test passes, the tick renders `current`, moves it cyclically and records the tick count. Otherwise nothing is shown, and `current` and the recorded tick count are unchanged. A texture is destroyed if and only if the redraw frame is dirty, holds a texture, and the read stream could be created. The destroyed texture is the old one. A decoded texture replaces it; after a failed decode it stays installed. |
| Playback.FailedTicksDestroyTwice | ugoira-play/src/main.c:220-222 | Concrete case: on a one-frame player whose dirty frame holds texture 7, two ticks with failed decodes each destroy texture 7, and it stays installed. |
| Playback.Fires | ugoira-play/src/main.c:232 | The advance test passes only when the player is not paused and the tick count has grown since the last advance. |
| Playback.FullDurationForcesFiring | ugoira-play/src/main.c:232 | When not paused, once a full duration has passed since the last advance, the player advances. |
| Playback.PausedPlayerStays | ugoira-play/src/main.c:231-251 | While paused, any number of ticks leaves `current`, the recorded tick count, and every frame's name and links unchanged. |
| Playback.RedrawSweep | ugoira-play/src/main.c:220-229 | After k ≤ n ticks whose decodes succeed, the redraw cursor is k nodes further on, cyclically, and the k frames it passed are clean. |
| Playback.RedrawCycleCleansAll | ugoira-play/src/main.c:220-229 | n ticks with successful decodes leave every frame clean, wherever the redraw cursor started. |
| Playback.SwitchFilteringMode | ugoira-play/src/main.c:62-76 | The hint becomes "0" or "1". It becomes "1" if and only if it was not the bytes "1". |
| Playback.SwitchFilteringModeInvolution | ugoira-play/src/main.c:67-71 | Switching a "0"/"1" hint twice restores it. |
| Playback.MarkDirtyFrom | ugoira-play/src/main.c:174-177 | Every node reachable forward from the start becomes dirty. Every node not reachable from it, including every node before the start, is untouched. No link or other field changes. |
| Playback.PressScaleKey | ugoira-play/src/main.c:171-178 | Key 'a' switches the hint, resets the redraw cursor to `current`, and marks every frame dirty. Nothing else changes. |
| Playback.PressSpace | ugoira-play/src/main.c:179-181 | Space toggles pause and changes nothing else. |
| Playback.HandleKeyUp | ugoira-play/src/main.c:158-183 | A key release with a modifier held changes nothing. A quit request happens exactly for an unmodified 'q'. An unmodified 'a' runs the scale key, space toggles pause, and any other key changes nothing. The player stays valid. |
| Playback.Quit | ugoira-play/src/main.c:184-204 | Starting from the head, every node is freed exactly once, in head-to-tail order. Each node's frame releases everything it owns, each resource exactly once. |
| Playback.JsonFilename | ugoira-play/src/main.c:104-108 | The path is derived if and only if it fits with its terminator below 1024 bytes. The derived path is the archive path with its last four bytes replaced by ".json". |

## Left out

- SDL, SDL_image, libarchive and jansson: windows, rendering, event polling, `SDL_Delay` and the hint store are not modelled. The tick count, decode outcomes, archive entries and parsed JSON are inputs.
- `render_frame` and the redraw on `SDL_WINDOWEVENT_EXPOSED`: they only draw.
- `list_print`: it only writes to standard output.
- The top-level `ugoira-play/main.c`, `archive.c`, `list.c`, `list.h`, `frame.h` and `main.h` are superseded revisions and are not part of this model. `frame.c` is the only top-level file modelled.
- Startup glue in `main`: argument checks, the `read_whole_archive` call, and the window and renderer set-up. The call at `src/main.c:97` does not match the three-argument `read_whole_archive` of `src/archive.c`, so there is no single revision to model.
- Where the manifest comes from: `frame.c` loads it from a path, while `src/archive.c` hands back in-archive bytes. Correlation is modelled over parsed records, so it does not depend on either source.
- The Python tools `ugoira-dl`, `ugoira2mkv` and `ugoira2webm`: they do network and subprocess I/O and are outside the player.
- Memory allocation and `malloc` failure: the arena only grows, and releases are returned as logs.
- Tick: the tick count is an unbounded natural number, so the 32-bit wrap-around of `SDL_GetTicks` is not modelled. Each tick also takes a single tick count, where the source reads the clock twice, at lines 232 and 250.
- PressScaleKey: a failing `SDL_SetHint` is logged and ignored by the source; the model always switches the hint.
- ReadArchiveEntry: a negative return from `archive_read_data` (an error) is not modelled. Each chunk is a byte sequence.
- ReadArchiveEntry: entries that deliver more bytes than declared overflow the buffer in the source. The model reports them as the same size-mismatch abort as the `assert` at `src/archive.c:53`.
- IngestEntries: every frame entry's path must fit the 11-byte name buffer. A longer path overflows it in `strcpy`, which is undefined behaviour.
- JsonFilename: requires a path of at least four bytes without NUL. A shorter path makes the source write before the start of the buffer.
- Quit: the teardown log records what is released. Freeing is not modelled on the heap, and `SDL_DestroyRenderer`, `SDL_DestroyWindow` and `exit` are left out.

## Findings

| source | as written | input that shows it | evidently intended | confidence | as-written member | corrected member |
|---|---|---|---|---|---|---|
| ugoira-play/frame.c:148-153 | The lookup result overwrites the search cursor. After a miss the cursor is NULL, `list_head(NULL)` is NULL, and every later record misses too. | One frame "a.png", with records `{file: "d.png", delay: 5}` then `{file: "a.png", delay: 100}`: "a.png" keeps duration 0. | A record naming no frame is skipped, and later records still assign their delays. | not executed | Manifest.GetFrameDurationsAsWritten, Manifest.MissSkipsLaterRecords | Manifest.GetFrameDurations, Manifest.CorrelationAssignsLastDelay |
| ugoira-play/src/main.c:38-48 | The old texture is destroyed before decoding. On a decode failure the field still holds the destroyed handle and the frame stays dirty, so the next attempt destroys the same handle again and rendering uses a destroyed texture. | A frame holding texture 7 with two failed decodes: texture 7 is destroyed twice and stays installed. | A failed decode keeps the previous texture. The old texture is destroyed only once the new one exists. | not executed | Playback.GenerateTextureAsWritten, Playback.DecodeFailureDestroysTwice, Playback.FailedTicksDestroyTwice | Playback.GenerateTexture, Playback.RetryNeverDestroysTwice |

=== FILE: archive.dfy ===
/** Archive ingestion, `ugoira-play/src/archive.c`: copy every zip entry
    into memory, keep the "animation.json" entry aside as the manifest and
    turn every other entry into a frame appended to the frame sequence.
    The archive library is replaced by its observable answers: whether the
    reader could be set up and the file opened, and, per entry, its path,
    its declared size and the chunks successive reads deliver. */
module Archive {
  import opened Wrappers
  import opened NodeList
  import opened Frames

  /** The size of the stack buffer each read goes through. */
  const BufferSize: nat := 4096

  /** The entry name that holds the manifest. */
  const ManifestName: ByteString := Ascii("animation.json")

  /** One archive entry: its path, the size its header declares and the
      byte chunks successive `archive_read_data` calls return; a read past
      the last chunk returns nothing (end of data). */
  datatype Entry = Entry(path: ByteString, declaredSize: nat, chunks: seq<seq<byte>>)

  /** What the archive library reports when asked to set up and open the
      file, and the entries it enumerates when it succeeds. */
  datatype Source = Source(readerCreated: bool, zipSupported: bool, fileOpened: bool, entries: seq<Entry>)

  datatype IngestError =
    | ReaderNewFailed
    | ZipSupportFailed
    | OpenFailed
    | SizeMismatch(path: ByteString)

  /** The outcome of ingestion: the frame sequence, its first node (NULL
      when the archive holds no frame) and the last manifest entry's bytes
      (`None` when the archive has none, so the out-parameter is untouched). */
  datatype Ingested = Ingested(frames: FrameList, start: Option<nat>, json: Option<seq<byte>>)

  /** The byte count every read of an entry asks for. */
  function Request(total: nat): (r: nat)
    ensures r <= BufferSize && r <= total
    ensures r == BufferSize || r == total
  {
    if total < BufferSize then total else BufferSize
  }

  /** The library never hands back more than a read asked for. */
  predicate ReadsWithinRequest(e: Entry) {
    forall k :: 0 <= k < |e.chunks| ==> |e.chunks[k]| <= Request(e.declaredSize)
  }

  /** What one read returns: the next chunk, or nothing at end of data. */
  function ReadChunk(chunks: seq<seq<byte>>): seq<byte> {
    if chunks == [] then [] else chunks[0]
  }

  /** The chunks `cs` joined in order. */
  function Concat(cs: seq<seq<byte>>): seq<byte>
    decreases |cs|
  {
    if cs == [] then [] else cs[0] + Concat(cs[1..])
  }

  /** How many chunks the copy loop takes in: up to and including the first
      one shorter than the buffer, or all of them when none is (the read
      after the last chunk returns nothing, which is short). */
  function ChunksRead(chunks: seq<seq<byte>>): (n: nat)
    ensures n <= |chunks| && (n == 0 <==> chunks == [])
    ensures forall j :: 0 <= j < n - 1 ==> |chunks[j]| >= BufferSize
    ensures 0 < n < |chunks| ==> |chunks[n - 1]| < BufferSize
    decreases |chunks|
  {
    if chunks == [] then 0
    else if |chunks[0]| < BufferSize then 1
    else 1 + ChunksRead(chunks[1..])
  }

  /** The bytes the copy loop accumulates: every chunk is appended, and the
      loop stops after the first chunk shorter than the buffer. */
  function Copied(chunks: seq<seq<byte>>): (r: seq<byte>)
    ensures r == Concat(chunks[..ChunksRead(chunks)])
    ensures |ReadChunk(chunks)| <= |r|
    ensures r[..|ReadChunk(chunks)|] == ReadChunk(chunks)
    decreases |chunks|
  {
    var c := ReadChunk(chunks);
    if |c| < BufferSize then
      assert chunks != [] ==> chunks[..1][1..] == [];
      c
    else
      var rest := Copied(chunks[1..]);
      assert chunks[..ChunksRead(chunks)][1..] == chunks[1..][..ChunksRead(chunks[1..])];
      c + rest
  }

  /** The result of `read_archive_entry`: the copied bytes, provided the
      byte count equals the declared size (the source asserts it). */
  function ExtractEntry(e: Entry): (r: Result<seq<byte>, IngestError>)
    ensures r.Success? <==> |Copied(e.chunks)| == e.declaredSize
    ensures r.Success? ==> |r.value| == e.declaredSize
    ensures r.Success? ==> r.value == Concat(e.chunks[..ChunksRead(e.chunks)])
    ensures r.Failure? ==> r.error == SizeMismatch(e.path)
  {
    var c := Copied(e.chunks);
    if |c| == e.declaredSize then Success(c) else Failure(SizeMismatch(e.path))
  }

  /** Joining one more chunk appends it. */
  lemma {:induction false} ConcatSnoc(cs: seq<seq<byte>>, k: nat)
    requires k < |cs|
    ensures Concat(cs[..k + 1]) == Concat(cs[..k]) + cs[k]
    decreases k
  {
    if k > 0 {
      ConcatSnoc(cs[1..], k - 1);
      assert cs[..k + 1][1..] == cs[1..][..k];
      assert cs[..k][1..] == cs[1..][..k - 1];
    } else {
      assert cs[..1][1..] == [];
    }
  }

  /** The stopping rule pins down how many chunks are read. */
  lemma ChunksReadUnique(chunks: seq<seq<byte>>, n: nat)
    requires n <= |chunks| && (n == 0 <==> chunks == [])
    requires forall j :: 0 <= j < n - 1 ==> |chunks[j]| >= BufferSize
    requires 0 < n < |chunks| ==> |chunks[n - 1]| < BufferSize
    ensures ChunksRead(chunks) == n
    decreases |chunks|
  {
    if chunks != [] && |chunks[0]| >= BufferSize {
      var tail := chunks[1..];
      forall j | 0 <= j < n - 2
        ensures |tail[j]| >= BufferSize
      {
        assert tail[j] == chunks[j + 1];
      }
      if 0 < n - 1 < |tail| {
        assert tail[n - 2] == chunks[n - 1];
      }
      ChunksReadUnique(tail, n - 1);
    }
  }

  /** `read_archive_entry` with its copy loop. */
  method ReadArchiveEntry(e: Entry) returns (r: Result<seq<byte>, IngestError>)
    ensures r == ExtractEntry(e)
    ensures r.Success? <==> |Copied(e.chunks)| == e.declaredSize
    ensures r.Success? ==> |r.value| == e.declaredSize
  {
    var total := e.declaredSize;
    var copied: seq<byte> := [];
    var k := 0;
    while true
      invariant k <= |e.chunks|
      invariant copied == Concat(e.chunks[..k])
      invariant forall j :: 0 <= j < k ==> |e.chunks[j]| >= BufferSize
      decreases |e.chunks| - k
    {
      var chunk := ReadChunk(e.chunks[k..]);
      if k < |e.chunks| {
        ConcatSnoc(e.chunks, k);
      }
      copied := copied + chunk;
      if |chunk| < BufferSize {
        var n := if k < |e.chunks| then k + 1 else k;
        ChunksReadUnique(e.chunks, n);
        assert copied == Concat(e.chunks[..n]) == Copied(e.chunks);
        break;
      }
      k := k + 1;
    }
    if |copied| == total {
      r := Success(copied);
    } else {
      r := Failure(SizeMismatch(e.path));
    }
  }

  /** An entry shorter than the buffer is read in a single call: the request
      is the declared size, so the first chunk is already short. */
  lemma SmallEntryReadsOnce(e: Entry)
    requires ReadsWithinRequest(e) && e.declaredSize < BufferSize
    ensures Copied(e.chunks) == ReadChunk(e.chunks)
  {
  }

  /** `data` cut into full buffers followed by one short final piece. */
  function Blocks(data: seq<byte>): (r: seq<seq<byte>>)
    ensures |r| >= 1
    ensures forall k :: 0 <= k < |r| ==> |r[k]| <= BufferSize
    decreases |data|
  {
    if |data| < BufferSize then [data] else [data[..BufferSize]] + Blocks(data[BufferSize..])
  }

  lemma {:induction false} CopiedBlocks(data: seq<byte>)
    ensures Copied(Blocks(data)) == data
    decreases |data|
  {
    if |data| >= BufferSize {
      var bs := Blocks(data);
      assert bs[1..] == Blocks(data[BufferSize..]);
      CopiedBlocks(data[BufferSize..]);
      assert data == data[..BufferSize] + data[BufferSize..];
    }
  }

  /** Round trip: an entry whose data arrives in full buffers and a short
      tail is reassembled to exactly its declared bytes. */
  lemma ExtractBlocksRoundTrip(path: ByteString, data: seq<byte>)
    ensures ReadsWithinRequest(Entry(path, |data|, Blocks(data)))
    ensures ExtractEntry(Entry(path, |data|, Blocks(data))) == Success(data)
  {
    CopiedBlocks(data);
    var bs := Blocks(data);
    if |data| < BufferSize {
      assert bs == [data];
    }
  }

  /** The frame an entry becomes: a created frame whose name is the entry
      path and whose image is the copied bytes with the declared size. */
  function EntryFrame(e: Entry, bytes: seq<byte>): (f: Frame)
    ensures f.name == e.path && f.image == Some(bytes) && f.imageSize == e.declaredSize
    ensures f.needRedraw && f.duration == 0 && f.texture.None?
  {
    FrameCreate().(name := e.path).(image := Some(bytes), imageSize := e.declaredSize)
  }

  /** Ingestion part-way through the entry loop. */
  datatype Progress = Progress(frames: FrameList, start: Option<nat>, current: Option<nat>, json: Option<seq<byte>>)

  /** Before the first frame nothing is built; after it, the sequence is a
      chain whose head is `start` and whose tail is `current`. */
  predicate ValidProgress(p: Progress) {
    || (p.frames == [] && p.start.None? && p.current.None?)
    || (Chain(p.frames) && p.start == Some(0) && p.current == Some(|p.frames| - 1))
  }

  /** Every entry that becomes a frame has a path that fits the name buffer. */
  predicate FrameNamesFit(entries: seq<Entry>) {
    forall k :: 0 <= k < |entries| && entries[k].path != ManifestName ==> NameFits(entries[k].path)
  }

  /** The frames of a progress state, read back from its arena. */
  function Payloads(a: FrameList): (r: seq<Frame>)
    ensures |r| == |a| && forall i :: 0 <= i < |a| ==> r[i] == a[i].data
  {
    seq(|a|, i requires 0 <= i < |a| => a[i].data)
  }

  /** Dropping the first entry keeps the entry facts. */
  lemma EntriesTail(entries: seq<Entry>)
    requires entries != []
    ensures FrameNamesFit(entries) ==> FrameNamesFit(entries[1..])
    ensures AllExtract(entries) <==> ExtractEntry(entries[0]).Success? && AllExtract(entries[1..])
  {
    forall k | 0 <= k < |entries| - 1
      ensures entries[1..][k] == entries[k + 1]
    {
    }
  }

  /** Appending a frame: `list_create` for the first frame, then
      `list_insert_after` the current tail. */
  function AppendFrame(p: Progress, f: Frame): (r: Progress)
    requires ValidProgress(p)
    ensures ValidProgress(r) && r.frames != []
    ensures r.json == p.json
    ensures Payloads(r.frames) == Payloads(p.frames) + [f]
  {
    if p.start.None? then
      var placed := Create(p.frames, f);
      assert placed.arena == BuildChain([f]);
      p.(frames := placed.arena, start := Some(placed.node), current := Some(placed.node))
    else
      var placed := InsertAfter(p.frames, p.current.value, f);
      AppendKeepsChain(p.frames, f);
      p.(frames := placed.arena, current := Some(placed.node))
  }

  /** The entry loop of `read_whole_archive`. */
  function IngestEntries(entries: seq<Entry>, p: Progress): (r: Result<Progress, IngestError>)
    requires ValidProgress(p) && FrameNamesFit(entries)
    ensures r.Success? ==> ValidProgress(r.value)
    ensures r.Success? ==> |p.frames| <= |r.value.frames|
    decreases |entries|
  {
    if entries == [] then Success(p)
    else
      var e := entries[0];
      EntriesTail(entries);
      match ExtractEntry(e)
      case Failure(err) => Failure(err)
      case Success(bytes) =>
        if e.path == ManifestName then
          IngestEntries(entries[1..], p.(json := Some(bytes)))
        else
          IngestEntries(entries[1..], AppendFrame(p, EntryFrame(e, bytes)))
  }

  /** Inserting after the tail of a chain extends the chain by one node. */
  lemma AppendKeepsChain(a: FrameList, f: Frame)
    requires Chain(a)
    ensures Chain(InsertAfter(a, |a| - 1, f).arena)
  {
    var b := InsertAfter(a, |a| - 1, f).arena;
    forall i | 0 <= i < |b|
      ensures b[i].prev == (if i == 0 then None else Some(i - 1))
      ensures b[i].next == (if i + 1 == |b| then None else Some(i + 1))
    {
      if i < |a| - 1 {
        assert b[i] == a[i];
      }
    }
  }

  /** `read_whole_archive`: a reader that cannot be created, set up for zip
      or opened yields NULL; otherwise the entry loop runs to the end. */
  function ReadWholeArchive(src: Source): (r: Result<Ingested, IngestError>)
    requires FrameNamesFit(src.entries)
    ensures !src.readerCreated ==> r == Failure(ReaderNewFailed)
    ensures src.readerCreated && !src.zipSupported ==> r == Failure(ZipSupportFailed)
    ensures src.readerCreated && src.zipSupported && !src.fileOpened ==> r == Failure(OpenFailed)
    ensures r.Success? ==> (r.value.start.None? <==> r.value.frames == [])
    ensures r.Success? && r.value.start.Some? ==> Chain(r.value.frames) && r.value.start == Some(0)
  {
    if !src.readerCreated then Failure(ReaderNewFailed)
    else if !src.zipSupported then Failure(ZipSupportFailed)
    else if !src.fileOpened then Failure(OpenFailed)
    else
      match IngestEntries(src.entries, Progress([], None, None, None))
      case Failure(err) => Failure(err)
      case Success(p) => Success(Ingested(p.frames, p.start, p.json))
  }

  // Reference definitions of what ingestion should produce.

  /** Every entry copies to exactly its declared size. */
  predicate AllExtract(entries: seq<Entry>) {
    forall k :: 0 <= k < |entries| ==> ExtractEntry(entries[k]).Success?
  }

  /** The frames the non-manifest entries become, in archive order. */
  function ExpectedFrames(entries: seq<Entry>): (r: seq<Frame>)
    requires AllExtract(entries)
    decreases |entries|
  {
    if entries == [] then []
    else
      EntriesTail(entries);
      var e := entries[0];
      var rest := ExpectedFrames(entries[1..]);
      if e.path == ManifestName then rest
      else [EntryFrame(e, ExtractEntry(e).value)] + rest
  }

  /** The bytes of the last manifest entry, if any. */
  function LastManifest(entries: seq<Entry>): Option<seq<byte>>
    requires AllExtract(entries)
    decreases |entries|
  {
    if entries == [] then None
    else
      EntriesTail(entries);
      var later := LastManifest(entries[1..]);
      if later.Some? then later
      else if entries[0].path == ManifestName then Some(ExtractEntry(entries[0]).value)
      else None
  }

  /** The index of the first entry whose copy does not match its size. */
  function FirstMismatch(entries: seq<Entry>): (k: nat)
    requires !AllExtract(entries)
    ensures k < |entries| && ExtractEntry(entries[k]).Failure?
    ensures forall j :: 0 <= j < k ==> ExtractEntry(entries[j]).Success?
    decreases |entries|
  {
    if ExtractEntry(entries[0]).Failure? then 0
    else
      EntriesTail(entries);
      1 + FirstMismatch(entries[1..])
  }

  lemma AppendAssoc<T>(xs: seq<T>, x: T, ys: seq<T>)
    ensures xs + ([x] + ys) == (xs + [x]) + ys
  {
  }

  lemma {:induction false} IngestEntriesBuildsChain(entries: seq<Entry>, p: Progress)
    requires ValidProgress(p) && FrameNamesFit(entries) && AllExtract(entries)
    ensures IngestEntries(entries, p).Success?
    ensures var r := IngestEntries(entries, p).value;
      && Payloads(r.frames) == Payloads(p.frames) + ExpectedFrames(entries)
      && r.json == (if LastManifest(entries).Some? then LastManifest(entries) else p.json)
    decreases |entries|
  {
    if entries != [] {
      var e := entries[0];
      assert ExtractEntry(e).Success?;
      var bytes := ExtractEntry(e).value;
      EntriesTail(entries);
      if e.path == ManifestName {
        IngestEntriesBuildsChain(entries[1..], p.(json := Some(bytes)));
      } else {
        var frame := EntryFrame(e, bytes);
        var next := AppendFrame(p, frame);
        IngestEntriesBuildsChain(entries[1..], next);
        var later := ExpectedFrames(entries[1..]);
        assert ExpectedFrames(entries) == [frame] + later;
        AppendAssoc(Payloads(p.frames), frame, later);
      }
    }
  }

  /** Ingestion of an openable archive whose entries all copy intact yields
      one frame per non-manifest entry, in archive order, each named by
      its entry path, holding its bytes, unset duration, dirty and without
      texture; the sequence starts at the first of them, or is NULL when
      there are none; the manifest bytes are those of the last
      "animation.json" entry. */
  lemma IngestionBuildsFrames(src: Source)
    requires FrameNamesFit(src.entries) && AllExtract(src.entries)
    requires src.readerCreated && src.zipSupported && src.fileOpened
    ensures ReadWholeArchive(src).Success?
    ensures var r := ReadWholeArchive(src).value;
      && Payloads(r.frames) == ExpectedFrames(src.entries)
      && (r.start.None? <==> ExpectedFrames(src.entries) == [])
      && r.json == LastManifest(src.entries)
  {
    IngestEntriesBuildsChain(src.entries, Progress([], None, None, None));
  }

  lemma {:induction false} IngestEntriesStopsAtMismatch(entries: seq<Entry>, p: Progress)
    requires ValidProgress(p) && FrameNamesFit(entries) && !AllExtract(entries)
    ensures IngestEntries(entries, p) == Failure(SizeMismatch(entries[FirstMismatch(entries)].path))
    decreases |entries|
  {
    var e := entries[0];
    EntriesTail(entries);
    if ExtractEntry(e).Success? {
      var bytes := ExtractEntry(e).value;
      assert FirstMismatch(entries) == 1 + FirstMismatch(entries[1..]);
      if e.path == ManifestName {
        IngestEntriesStopsAtMismatch(entries[1..], p.(json := Some(bytes)));
      } else {
        IngestEntriesStopsAtMismatch(entries[1..], AppendFrame(p, EntryFrame(e, bytes)));
      }
    }
  }

  /** The first entry whose bytes do not add up to its declared size aborts
      ingestion, whether it is a frame or the manifest. */
  lemma MismatchAbortsIngestion(src: Source)
    requires FrameNamesFit(src.entries) && !AllExtract(src.entries)
    requires src.readerCreated && src.zipSupported && src.fileOpened
    ensures ReadWholeArchive(src) == Failure(SizeMismatch(src.entries[FirstMismatch(src.entries)].path))
  {
    IngestEntriesStopsAtMismatch(src.entries, Progress([], None, None, None));
  }
}

=== FILE: frames.dfy ===
/** The frame record of `ugoira-play/src/frame.h` and the frame operations of
    `ugoira-play/frame.c` that do not touch the manifest: creation,
    destruction and lookup by file name. */
module Frames {
  import opened Wrappers
  import opened NodeList

  type byte = x: int | 0 <= x < 0x100
  /** C's `uint16_t`, the type of a frame's duration. */
  type u16 = x: int | 0 <= x < 0x1_0000

  /** The bytes of a C string, without its terminating NUL. Lengths are
      byte counts, as `strlen` reports them. */
  type ByteString = seq<byte>

  /** The bytes of an ASCII literal. */
  function Ascii(s: string): (r: ByteString)
    requires forall i :: 0 <= i < |s| ==> s[i] < 128 as char
    ensures |r| == |s| && forall i :: 0 <= i < |s| ==> r[i] == s[i] as int
  {
    seq(|s|, i requires 0 <= i < |s| => s[i] as int)
  }

  /** The size of the fixed `filename` buffer, terminating NUL included. */
  const NameCapacity: nat := 11

  /** A C string that can be `strcpy`'d into the name buffer: at most ten
      bytes before its NUL. */
  predicate NameFits(s: ByteString) {
    |s| < NameCapacity && 0 !in s
  }

  /** An opaque SDL texture handle. */
  datatype Texture = Texture(handle: nat)

  /** One animation still: name, dirty flag, duration in milliseconds,
      the encoded image bytes with their size, and the decoded texture. */
  datatype Frame = Frame(
    name: ByteString,
    needRedraw: bool,
    duration: u16,
    image: Option<seq<byte>>,
    imageSize: nat,
    texture: Option<Texture>)

  /** The frame sequence: an arena of nodes whose payloads are frames. */
  type FrameList = seq<Node<Frame>>

  /** Something `frame_destroy` gives back to the system. */
  datatype Resource = ImageBuffer | TextureHandle(texture: Texture) | FrameRecord

  /** A frame after its owned fields were released, and what was released. */
  datatype Released = Released(frame: Frame, freed: seq<Resource>)

  /** `frame_create`: the sentinel frame every archive entry starts from. */
  function FrameCreate(): (f: Frame)
    ensures f.name == Ascii("undefined") && NameFits(f.name)
    ensures f.needRedraw && f.duration == 0
    ensures f.image.None? && f.imageSize == 0 && f.texture.None?
  {
    Frame(Ascii("undefined"), true, 0, None, 0, None)
  }

  /** `f` owns `w`: its record always, its image and texture when present. */
  predicate Owns(f: Frame, w: Resource) {
    match w
    case ImageBuffer => f.image.Some?
    case TextureHandle(t) => f.texture == Some(t)
    case FrameRecord => true
  }

  /** The two guarded releases of `frame_destroy`: the image is freed only
      when present, the texture destroyed only when present, each at most
      once, and each field is nulled after its release. */
  function ReleaseFields(f: Frame): (r: Released)
    ensures r.frame.image.None? && r.frame.texture.None?
    ensures r.frame.name == f.name && r.frame.duration == f.duration
    ensures r.frame.needRedraw == f.needRedraw && r.frame.imageSize == f.imageSize
    ensures forall w :: multiset(r.freed)[w] == if w != FrameRecord && Owns(f, w) then 1 else 0
  {
    var afterImage := if f.image.Some? then [ImageBuffer] else [];
    var afterTexture := if f.texture.Some? then [TextureHandle(f.texture.value)] else [];
    Released(f.(image := None, texture := None), afterImage + afterTexture)
  }

  /** `frame_destroy`: the guarded field releases, then the record itself.
      Everything the frame owns is released exactly once, and nothing else. */
  function FrameDestroy(f: Frame): (freed: seq<Resource>)
    ensures |freed| >= 1 && freed[|freed| - 1] == FrameRecord
    ensures forall w :: multiset(freed)[w] == if Owns(f, w) then 1 else 0
  {
    ReleaseFields(f).freed + [FrameRecord]
  }

  /** Releasing the fields a second time releases nothing: no field is
      released twice. */
  lemma ReleaseFieldsIdempotent(f: Frame)
    ensures ReleaseFields(ReleaseFields(f).frame).freed == []
    ensures ReleaseFields(ReleaseFields(f).frame).frame == ReleaseFields(f).frame
  {
  }

  /** The forward scan of `get_frame_with_filename` from node `n` on. */
  function FindFrom(a: FrameList, n: Option<nat>, name: ByteString): (r: Option<nat>)
    requires Ordered(a) && ValidRef(a, n)
    ensures r.Some? ==> r.value < |a| && a[r.value].data.name == name
    ensures n.None? ==> r.None?
    decreases if n.Some? then |a| - n.value else 0
  {
    if n.None? then None
    else if a[n.value].data.name == name then n
    else FindFrom(a, a[n.value].next, name)
  }

  /** `get_frame_with_filename`: rewind to the head, then scan forward. */
  function GetFrameWithFilename(a: FrameList, n: Option<nat>, name: ByteString): (r: Option<nat>)
    requires Ordered(a) && ValidRef(a, n)
    ensures r.Some? ==> r.value < |a| && a[r.value].data.name == name
    ensures n.None? ==> r.None?
  {
    FindFrom(a, Head(a, n), name)
  }

  /** `r` is the first node of the node sequence `w` whose frame is named
      `name`, or NULL exactly when no node of `w` has that name. */
  ghost predicate IsFirstMatch(a: FrameList, w: seq<nat>, r: Option<nat>, name: ByteString)
    requires forall k :: 0 <= k < |w| ==> w[k] < |a|
  {
    && (r.None? <==> forall k :: 0 <= k < |w| ==> a[w[k]].data.name != name)
    && (r.Some? ==> exists k :: 0 <= k < |w| && w[k] == r.value && a[w[k]].data.name == name
                      && forall j :: 0 <= j < k ==> a[w[j]].data.name != name)
  }

  /** Putting a node without the name in front of a walk keeps its first
      match. */
  lemma FirstMatchCons(a: FrameList, n: nat, w: seq<nat>, r: Option<nat>, name: ByteString)
    requires n < |a| && a[n].data.name != name
    requires forall k :: 0 <= k < |w| ==> w[k] < |a|
    requires IsFirstMatch(a, w, r, name)
    ensures IsFirstMatch(a, [n] + w, r, name)
  {
    var v := [n] + w;
    if r.Some? {
      var k :| 0 <= k < |w| && w[k] == r.value && a[w[k]].data.name == name
                && forall j :: 0 <= j < k ==> a[w[j]].data.name != name;
      assert v[k + 1] == r.value;
      forall j | 0 <= j < k + 1
        ensures a[v[j]].data.name != name
      {
        if j > 0 {
          assert v[j] == w[j - 1];
        }
      }
    } else {
      forall k | 0 <= k < |v|
        ensures a[v[k]].data.name != name
      {
        if k > 0 {
          assert v[k] == w[k - 1];
        }
      }
    }
  }

  /** The forward scan from `n` finds the first node of the walk from `n`
      whose name is `name`, and finds nothing exactly when no node has it. */
  lemma {:induction false} FindFromIsFirstMatch(a: FrameList, n: nat, name: ByteString)
    requires Ordered(a) && n < |a|
    ensures IsFirstMatch(a, Walk(a, n), FindFrom(a, Some(n), name), name)
    decreases |a| - n
  {
    var w := Walk(a, n);
    if a[n].data.name == name {
      assert FindFrom(a, Some(n), name) == Some(n);
      assert w[0] == n;
    } else if a[n].next.Some? {
      var m := a[n].next.value;
      FindFromIsFirstMatch(a, m, name);
      assert w == [n] + Walk(a, m);
      FirstMatchCons(a, n, Walk(a, m), FindFrom(a, Some(m), name), name);
    } else {
      assert w == [n];
    }
  }

  /** The lookup returns the first node in head-to-tail order whose name
      equals the query, or NULL when no node of the list has that name. */
  lemma LookupIsFirstMatch(a: FrameList, n: nat, name: ByteString)
    requires Ordered(a) && n < |a|
    ensures IsFirstMatch(a, Walk(a, Head(a, Some(n)).value), GetFrameWithFilename(a, Some(n), name), name)
  {
    var h := Head(a, Some(n)).value;
    assert GetFrameWithFilename(a, Some(n), name) == FindFrom(a, Some(h), name);
    FindFromIsFirstMatch(a, h, name);
  }

  /** Because the lookup rewinds first, every node of a frame sequence
      gives the same answer. */
  lemma LookupFromAnyNode(a: FrameList, i: nat, j: nat, name: ByteString)
    requires Chain(a) && i < |a| && j < |a|
    ensures GetFrameWithFilename(a, Some(i), name) == GetFrameWithFilename(a, Some(j), name)
  {
    ChainHead(a, i);
    ChainHead(a, j);
  }

  /** Only the name and link fields matter to a lookup. */
  predicate SameNamesAndLinks(a: FrameList, b: FrameList) {
    && |a| == |b|
    && forall i :: 0 <= i < |a| ==>
         a[i].prev == b[i].prev && a[i].next == b[i].next && a[i].data.name == b[i].data.name
  }

  /** Lookups agree on two arenas that differ only outside names and links. */
  lemma {:induction false} FindFromIgnoresPayload(a: FrameList, b: FrameList, n: Option<nat>, name: ByteString)
    requires Ordered(a) && ValidRef(a, n) && SameNamesAndLinks(a, b)
    ensures Ordered(b)
    ensures FindFrom(a, n, name) == FindFrom(b, n, name)
    decreases if n.Some? then |a| - n.value else 0
  {
    if n.Some? && a[n.value].data.name != name {
      FindFromIgnoresPayload(a, b, a[n.value].next, name);
    }
  }

  lemma {:induction false} HeadIgnoresPayload(a: FrameList, b: FrameList, n: Option<nat>)
    requires Ordered(a) && ValidRef(a, n) && SameNamesAndLinks(a, b)
    ensures Ordered(b)
    ensures Head(a, n) == Head(b, n)
    decreases if n.Some? then n.value else 0
  {
    if n.Some? && a[n.value].prev.Some? {
      HeadIgnoresPayload(a, b, a[n.value].prev);
    }
  }

  /** Changing durations, images, textures or dirty flags never changes
      what a name lookup returns. */
  lemma LookupIgnoresPayload(a: FrameList, b: FrameList, n: Option<nat>, name: ByteString)
    requires Ordered(a) && ValidRef(a, n) && SameNamesAndLinks(a, b)
    ensures Ordered(b)
    ensures GetFrameWithFilename(a, n, name) == GetFrameWithFilename(b, n, name)
  {
    HeadIgnoresPayload(a, b, n);
    FindFromIgnoresPayload(a, b, Head(a, n), name);
  }
}

=== FILE: manifest.dfy ===
/** Manifest correlation, `get_frame_durations` in `ugoira-play/frame.c`:
    walk the manifest's "frames" array in order and copy each record's
    "delay" into the duration of the frame its "file" names. The manifest
    arrives already parsed; JSON text and where it was read from are not
    modelled. */
module Manifest {
  import opened Wrappers
  import opened NodeList
  import opened Frames

  /** One element of the "frames" array as the JSON library sees it. In an
      object, `file` is `None` when the "file" member is missing or not a
      string (and otherwise holds the string's bytes, as
      `json_string_value` hands them over), and `delay` is `None` when "delay" is missing or not an
      integer. */
  datatype RecordValue =
    | NonObject
    | Object(file: Option<ByteString>, delay: Option<int>)

  /** The parsed manifest document. */
  datatype Manifest =
    | LoadFailed
    | RootNotObject
    | FramesNotArray
    | FramesArray(records: seq<RecordValue>)

  /** A well-formed record: a file name and a JSON integer delay. */
  datatype Assignment = Assignment(file: ByteString, delay: int)

  predicate IsWellFormed(rv: RecordValue) {
    rv.Object? && rv.file.Some? && rv.delay.Some?
  }

  /** The cast `(uint16_t)` of a JSON integer: reduction modulo 2^16. */
  function Truncate16(d: int): (r: u16)
    ensures 0 <= d < 0x1_0000 ==> r == d
    ensures (d - r) % 0x1_0000 == 0
  {
    d % 0x1_0000
  }

  /** The records correlation gets to process: those before the first one
      that is not an object, has no string "file" or has no integer "delay". */
  function ProcessedRecords(recs: seq<RecordValue>): (r: seq<Assignment>)
    ensures |r| <= |recs|
    ensures forall k :: 0 <= k < |r| ==> recs[k] == Object(Some(r[k].file), Some(r[k].delay))
    ensures |r| < |recs| ==> !IsWellFormed(recs[|r|])
  {
    if recs == [] || !IsWellFormed(recs[0]) then []
    else [Assignment(recs[0].file.value, recs[0].delay.value)] + ProcessedRecords(recs[1..])
  }

  /** The delay of the last assignment naming `name`, if any. */
  function LastDelay(asg: seq<Assignment>, name: ByteString): (r: Option<int>)
    ensures r.Some? <==> exists k :: 0 <= k < |asg| && asg[k].file == name
    ensures r.Some? ==> exists k :: 0 <= k < |asg| && asg[k].file == name && asg[k].delay == r.value
                                    && forall j :: k < j < |asg| ==> asg[j].file != name
    decreases |asg|
  {
    if asg == [] then None
    else
      var later := LastDelay(asg[1..], name);
      if later.Some? then later
      else if asg[0].file == name then Some(asg[0].delay)
      else None
  }

  /** `b` is `a` with, at most, some durations changed. */
  predicate OnlyDurationsChanged(a: FrameList, b: FrameList) {
    && |a| == |b|
    && forall i :: 0 <= i < |a| ==>
         b[i] == a[i].(data := a[i].data.(duration := b[i].data.duration))
  }

  lemma OnlyDurationsKeepsShape(a: FrameList, b: FrameList)
    requires OnlyDurationsChanged(a, b)
    ensures SameNamesAndLinks(a, b)
    ensures Ordered(a) ==> Ordered(b)
    ensures Chain(a) ==> Chain(b)
  {
    assert forall i :: 0 <= i < |a| ==> a[i].prev == b[i].prev && a[i].next == b[i].next;
  }

  /** `frame->duration = delay_value`. */
  function SetDuration(a: FrameList, i: nat, d: u16): (r: FrameList)
    requires i < |a|
    ensures OnlyDurationsChanged(a, r)
    ensures r[i].data.duration == d
    ensures forall j :: 0 <= j < |a| && j != i ==> r[j] == a[j]
  {
    a[i := a[i].(data := a[i].data.(duration := d))]
  }

  /** The record loop with every lookup starting from the head: a record
      naming no frame is skipped and the scan goes on. */
  function ApplyRecords(a: FrameList, head: nat, recs: seq<RecordValue>): (r: FrameList)
    requires Ordered(a) && head < |a|
    ensures OnlyDurationsChanged(a, r)
    decreases |recs|
  {
    if recs == [] || !IsWellFormed(recs[0]) then a
    else
      var found := GetFrameWithFilename(a, Some(head), recs[0].file.value);
      var next := if found.Some? then SetDuration(a, found.value, Truncate16(recs[0].delay.value)) else a;
      OnlyDurationsKeepsShape(a, next);
      var r := ApplyRecords(next, head, recs[1..]);
      OnlyDurationsTransitive(a, next, r);
      r
  }

  lemma OnlyDurationsTransitive(a: FrameList, b: FrameList, c: FrameList)
    requires OnlyDurationsChanged(a, b) && OnlyDurationsChanged(b, c)
    ensures OnlyDurationsChanged(a, c)
  {
  }

  /** Correlation with a miss skipped, as the `continue` after the
      "couldn't find frame" diagnostic (`frame.c:150-152`) shows is meant:
      durations change only for a manifest laid out as an object with a
      "frames" array. */
  function GetFrameDurations(a: FrameList, head: nat, m: Manifest): (r: FrameList)
    requires Ordered(a) && head < |a| && a[head].prev.None?
    ensures OnlyDurationsChanged(a, r)
    ensures !m.FramesArray? ==> r == a
  {
    if m.FramesArray? then ApplyRecords(a, head, m.records) else a
  }

  /** The record loop as `get_frame_durations` writes it: the search cursor
      is overwritten with each lookup's result, so after a miss it is NULL,
      and `list_head(NULL)` is NULL. */
  function ApplyRecordsAsWritten(a: FrameList, cursor: Option<nat>, recs: seq<RecordValue>): (r: FrameList)
    requires Ordered(a) && ValidRef(a, cursor)
    ensures OnlyDurationsChanged(a, r)
    decreases |recs|
  {
    if recs == [] || !IsWellFormed(recs[0]) then a
    else
      var found := GetFrameWithFilename(a, cursor, recs[0].file.value);
      if found.None? then ApplyRecordsAsWritten(a, None, recs[1..])
      else
        var next := SetDuration(a, found.value, Truncate16(recs[0].delay.value));
        OnlyDurationsKeepsShape(a, next);
        var r := ApplyRecordsAsWritten(next, found, recs[1..]);
        OnlyDurationsTransitive(a, next, r);
        r
  }

  /** `get_frame_durations` as written. */
  function GetFrameDurationsAsWritten(a: FrameList, head: nat, m: Manifest): (r: FrameList)
    requires Ordered(a) && head < |a| && a[head].prev.None?
    ensures OnlyDurationsChanged(a, r)
    ensures !m.FramesArray? ==> r == a
  {
    if m.FramesArray? then ApplyRecordsAsWritten(a, Some(head), m.records) else a
  }

  /** The duration frame `i` should end with: the truncated delay of the
      last processed record naming it, when frame `i` is the first frame
      with that name; its old duration otherwise. */
  function ExpectedDuration(a: FrameList, head: nat, asg: seq<Assignment>, i: nat): u16
    requires Ordered(a) && head < |a| && i < |a|
  {
    var name := a[i].data.name;
    var last := LastDelay(asg, name);
    if last.Some? && GetFrameWithFilename(a, Some(head), name) == Some(i)
    then Truncate16(last.value)
    else a[i].data.duration
  }

  ghost predicate DurationsAsExpected(a: FrameList, b: FrameList, head: nat, asg: seq<Assignment>)
    requires Ordered(a) && head < |a| && |b| == |a|
  {
    forall i :: 0 <= i < |a| ==> b[i].data.duration == ExpectedDuration(a, head, asg, i)
  }

  /** Correlation gives every frame the truncated delay of the last
      processed record that names it (the first frame of that name only),
      leaves every other duration alone, and ignores records from the
      first malformed one on. */
  lemma {:induction false} CorrelationAssignsLastDelay(a: FrameList, head: nat, recs: seq<RecordValue>)
    requires Ordered(a) && head < |a|
    ensures DurationsAsExpected(a, ApplyRecords(a, head, recs), head, ProcessedRecords(recs))
    decreases |recs|
  {
    if recs == [] || !IsWellFormed(recs[0]) {
    } else {
      var f := recs[0].file.value;
      var d := recs[0].delay.value;
      var found := GetFrameWithFilename(a, Some(head), f);
      var next := if found.Some? then SetDuration(a, found.value, Truncate16(d)) else a;
      OnlyDurationsKeepsShape(a, next);
      CorrelationAssignsLastDelay(next, head, recs[1..]);
      var b := ApplyRecords(a, head, recs);
      assert b == ApplyRecords(next, head, recs[1..]);
      var rest := ProcessedRecords(recs[1..]);
      assert ProcessedRecords(recs) == [Assignment(f, d)] + rest;
      forall i | 0 <= i < |a|
        ensures b[i].data.duration == ExpectedDuration(a, head, ProcessedRecords(recs), i)
      {
        ExpectedAfterStep(a, head, f, d, rest, i);
      }
    }
  }

  /** One record step, seen from frame `i`: what the rest of the records
      owe frame `i` after the step is what all of them owed it before. */
  lemma ExpectedAfterStep(a: FrameList, head: nat, f: ByteString, d: int, rest: seq<Assignment>, i: nat)
    requires Ordered(a) && head < |a| && i < |a|
    ensures var found := GetFrameWithFilename(a, Some(head), f);
            var next := if found.Some? then SetDuration(a, found.value, Truncate16(d)) else a;
            && Ordered(next)
            && ExpectedDuration(next, head, rest, i) == ExpectedDuration(a, head, [Assignment(f, d)] + rest, i)
  {
    var found := GetFrameWithFilename(a, Some(head), f);
    var next := if found.Some? then SetDuration(a, found.value, Truncate16(d)) else a;
    OnlyDurationsKeepsShape(a, next);
    var name := a[i].data.name;
    LookupIgnoresPayload(a, next, Some(head), name);
    assert next[i].data.name == name;
    var full := [Assignment(f, d)] + rest;
    assert full[1..] == rest;
    if found == Some(i) {
      assert f == name;
    }
  }

  /** Once the as-written cursor is NULL, no later record changes anything. */
  lemma {:induction false} AsWrittenMissIsSticky(a: FrameList, recs: seq<RecordValue>)
    requires Ordered(a)
    ensures ApplyRecordsAsWritten(a, None, recs) == a
    decreases |recs|
  {
    if recs != [] && IsWellFormed(recs[0]) {
      AsWrittenMissIsSticky(a, recs[1..]);
    }
  }

  /** Every processed record names a frame of the sequence. */
  predicate NoMiss(a: FrameList, asg: seq<Assignment>)
    requires Chain(a)
  {
    forall k :: 0 <= k < |asg| ==> GetFrameWithFilename(a, Some(0), asg[k].file).Some?
  }

  /** Until the first miss the as-written loop behaves like the corrected
      one: on a frame sequence, a lookup from any node equals a lookup from
      the head. */
  lemma {:induction false} AsWrittenAgreesWithoutMiss(a: FrameList, c: nat, recs: seq<RecordValue>)
    requires Chain(a) && c < |a| && NoMiss(a, ProcessedRecords(recs))
    ensures ApplyRecordsAsWritten(a, Some(c), recs) == ApplyRecords(a, 0, recs)
    decreases |recs|
  {
    if recs != [] && IsWellFormed(recs[0]) {
      var f := recs[0].file.value;
      var asg := ProcessedRecords(recs);
      assert asg[0].file == f;
      LookupFromAnyNode(a, c, 0, f);
      var found := GetFrameWithFilename(a, Some(0), f);
      var next := SetDuration(a, found.value, Truncate16(recs[0].delay.value));
      OnlyDurationsKeepsShape(a, next);
      forall k | 0 <= k < |ProcessedRecords(recs[1..])|
        ensures GetFrameWithFilename(next, Some(0), ProcessedRecords(recs[1..])[k].file).Some?
      {
        assert ProcessedRecords(recs[1..])[k] == asg[k + 1];
        LookupIgnoresPayload(a, next, Some(0), asg[k + 1].file);
      }
      AsWrittenAgreesWithoutMiss(next, found.value, recs[1..]);
    }
  }

  /** The file names of the example below. */
  const PngA: ByteString := Ascii("a.png")
  const PngD: ByteString := Ascii("d.png")

  /** A one-frame sequence holding "a.png" with the unset duration. */
  function OneFrame(): (a: FrameList)
    ensures Chain(a) && |a| == 1
  {
    BuildChain([FrameCreate().(name := PngA)])
  }

  /** The records `{file: "d.png", delay: 5}, {file: "a.png", delay: 100}`. */
  function MissThenHit(): seq<RecordValue> {
    [Object(Some(PngD), Some(5)), Object(Some(PngA), Some(100))]
  }

  /** As written, a record naming an absent frame blinds the loop: the
      later record for "a.png" is never applied and the frame keeps the
      unset duration, where the corrected loop gives it 100. */
  lemma MissSkipsLaterRecords()
    ensures GetFrameDurationsAsWritten(OneFrame(), 0, FramesArray(MissThenHit()))[0].data.duration == 0
    ensures GetFrameDurations(OneFrame(), 0, FramesArray(MissThenHit()))[0].data.duration == 100
  {
    var a := OneFrame();
    var recs := MissThenHit();
    assert a[0].data.name == PngA;
    assert Head(a, Some(0)) == Some(0);
    assert PngA[0] != PngD[0];
    assert GetFrameWithFilename(a, Some(0), PngD) == None;
    AsWrittenMissIsSticky(a, recs[1..]);
    CorrelationAssignsLastDelay(a, 0, recs);
    var asg := ProcessedRecords(recs);
    assert asg == [Assignment(PngD, 5), Assignment(PngA, 100)];
    assert LastDelay(asg, PngA) == Some(100);
    assert GetFrameWithFilename(a, Some(0), PngA) == Some(0);
  }
}

=== FILE: node_list.dfy ===
/** The doubly-linked list of `ugoira-play/src/list.c`, as an index-based
    arena: a node's `prev` and `next` are positions in the arena instead of
    pointers, and `None` plays the part of NULL. Nodes are never freed here;
    an arena holds every node ever created. */
module NodeList {
  import opened Wrappers

  /** One list node: the C `Node` with its two pointers and its payload. */
  datatype Node<T> = Node(prev: Option<nat>, data: T, next: Option<nat>)

  /** An arena together with the node an operation hands back. */
  datatype Placed<T> = Placed(arena: seq<Node<T>>, node: nat)

  /** A possibly-NULL node reference that is NULL or names a node of `a`. */
  predicate ValidRef<T>(a: seq<Node<T>>, n: Option<nat>) {
    n.None? || n.value < |a|
  }

  /** Every `prev` link points to an older node and every `next` link to a
      younger one. Create and InsertAfter keep this (see
      `CreateKeepsWellFormed`, `InsertAfterKeepsOrdered`), and it is what
      makes the head and tail walks terminate. */
  predicate Ordered<T>(a: seq<Node<T>>) {
    forall i :: 0 <= i < |a| ==>
      && (a[i].prev.None? || a[i].prev.value < i)
      && (a[i].next.None? || i < a[i].next.value < |a|)
  }

  /** `next` and `prev` are mutual inverses: `j` follows `i` exactly when
      `i` precedes `j`. */
  predicate Linked<T>(a: seq<Node<T>>) {
    forall i, j :: 0 <= i < |a| && 0 <= j < |a| ==>
      (a[i].next == Some(j) <==> a[j].prev == Some(i))
  }

  /** The well-formedness of a list: links are ordered and mutually inverse. */
  predicate WellFormed<T>(a: seq<Node<T>>) {
    Ordered(a) && Linked(a)
  }

  /** The arena holds exactly one list, its nodes in arena order 0 .. |a|-1. */
  predicate Chain<T>(a: seq<Node<T>>) {
    && |a| >= 1
    && forall i :: 0 <= i < |a| ==>
         && a[i].prev == (if i == 0 then None else Some(i - 1))
         && a[i].next == (if i + 1 == |a| then None else Some(i + 1))
  }

  /** `list_create`: a fresh node with no neighbours holding `d`. */
  function Create<T>(a: seq<Node<T>>, d: T): (r: Placed<T>)
    ensures |r.arena| == |a| + 1 && r.node == |a|
    ensures r.arena[r.node].prev.None? && r.arena[r.node].next.None?
    ensures r.arena[r.node].data == d
    ensures r.arena[..|a|] == a
  {
    Placed(a + [Node(None, d, None)], |a|)
  }

  /** `list_insert_after`: a fresh node becomes `n`'s successor and has `n`
      as predecessor. Whatever followed `n` before is NOT relinked: its
      `prev` still names `n`. */
  function InsertAfter<T>(a: seq<Node<T>>, n: nat, d: T): (r: Placed<T>)
    requires n < |a|
    ensures |r.arena| == |a| + 1 && r.node == |a|
    ensures r.arena[n].next == Some(r.node)
    ensures r.arena[r.node].prev == Some(n) && r.arena[r.node].next.None?
    ensures r.arena[r.node].data == d
    ensures r.arena[n].prev == a[n].prev && r.arena[n].data == a[n].data
    ensures forall i :: 0 <= i < |a| && i != n ==> r.arena[i] == a[i]
  {
    var created := Create(a, d);
    var linked := created.arena[n := a[n].(next := Some(created.node))];
    Placed(linked[created.node := linked[created.node].(prev := Some(n))], created.node)
  }

  /** `from` reaches `to` by following zero or more `prev` links. */
  ghost predicate BackReaches<T>(a: seq<Node<T>>, from: nat, to: nat)
    requires Ordered(a) && from < |a|
    decreases from
  {
    from == to || (a[from].prev.Some? && BackReaches(a, a[from].prev.value, to))
  }

  /** `from` reaches `to` by following zero or more `next` links. */
  ghost predicate ForwardReaches<T>(a: seq<Node<T>>, from: nat, to: nat)
    requires Ordered(a) && from < |a|
    decreases |a| - from
  {
    from == to || (a[from].next.Some? && ForwardReaches(a, a[from].next.value, to))
  }

  /** `list_head`: NULL stays NULL; otherwise the node without predecessor
      that the `prev` links lead to. */
  function Head<T>(a: seq<Node<T>>, n: Option<nat>): (r: Option<nat>)
    requires Ordered(a) && ValidRef(a, n)
    ensures r.None? <==> n.None?
    ensures r.Some? ==> r.value < |a| && a[r.value].prev.None?
    ensures r.Some? ==> r.value <= n.value && BackReaches(a, n.value, r.value)
    decreases if n.Some? then n.value else 0
  {
    if n.None? then None
    else if a[n.value].prev.None? then n
    else Head(a, a[n.value].prev)
  }

  /** `list_last`: NULL stays NULL; otherwise the node without successor
      that the `next` links lead to. */
  function Last<T>(a: seq<Node<T>>, n: Option<nat>): (r: Option<nat>)
    requires Ordered(a) && ValidRef(a, n)
    ensures r.None? <==> n.None?
    ensures r.Some? ==> r.value < |a| && a[r.value].next.None?
    ensures r.Some? ==> n.value <= r.value && ForwardReaches(a, n.value, r.value)
    decreases if n.Some? then |a| - n.value else 0
  {
    if n.None? then None
    else if a[n.value].next.None? then n
    else Last(a, a[n.value].next)
  }

  /** The nodes visited by following `next` from `n` until NULL, in order. */
  function Walk<T>(a: seq<Node<T>>, n: nat): (r: seq<nat>)
    requires Ordered(a) && n < |a|
    ensures |r| >= 1 && r[0] == n
    ensures forall k :: 0 <= k < |r| ==> r[k] < |a|
    ensures forall k :: 0 <= k < |r| - 1 ==> a[r[k]].next == Some(r[k + 1])
    ensures a[r[|r| - 1]].next.None?
    decreases |a| - n
  {
    if a[n].next.None? then [n] else [n] + Walk(a, a[n].next.value)
  }

  /** The arena built by `list_create` of the first payload followed by one
      `list_insert_after` at the current tail for each later payload. */
  function BuildChain<T>(ps: seq<T>): (r: seq<Node<T>>)
    requires |ps| >= 1
    ensures |r| == |ps| && Chain(r)
    ensures forall i :: 0 <= i < |ps| ==> r[i].data == ps[i]
    decreases |ps|
  {
    if |ps| == 1 then Create([], ps[0]).arena
    else
      var prefix := BuildChain(ps[..|ps| - 1]);
      InsertAfter(prefix, |ps| - 2, ps[|ps| - 1]).arena
  }

  lemma ChainIsWellFormed<T>(a: seq<Node<T>>)
    requires Chain(a)
    ensures WellFormed(a)
  {
    forall i | 0 <= i < |a|
      ensures a[i].prev.None? || a[i].prev.value < i
      ensures a[i].next.None? || i < a[i].next.value < |a|
    {
    }
    forall i, j | 0 <= i < |a| && 0 <= j < |a|
      ensures a[i].next == Some(j) <==> a[j].prev == Some(i)
    {
      assert a[i].next == Some(j) <==> j == i + 1;
      assert a[j].prev == Some(i) <==> j == i + 1;
    }
  }

  /** Creating a node keeps an arena well formed, and the new node is its
      own head and its own tail. */
  lemma CreateKeepsWellFormed<T>(a: seq<Node<T>>, d: T)
    requires WellFormed(a)
    ensures WellFormed(Create(a, d).arena)
    ensures Head(Create(a, d).arena, Some(|a|)) == Some(|a|)
    ensures Last(Create(a, d).arena, Some(|a|)) == Some(|a|)
  {
    var r := Create(a, d).arena;
    forall i | 0 <= i < |r|
      ensures r[i] == if i < |a| then a[i] else Node(None, d, None)
    {
      if i < |a| {
        assert r[i] == r[..|a|][i];
      }
    }
  }

  lemma InsertAfterKeepsOrdered<T>(a: seq<Node<T>>, n: nat, d: T)
    requires Ordered(a) && n < |a|
    ensures Ordered(InsertAfter(a, n, d).arena)
  {
  }

  /** Inserting after `n` keeps a list well formed exactly when `n` is a
      tail: a successor of `n` would keep pointing back at `n` while `n`
      now points forward to the new node. */
  lemma {:induction false} InsertAfterWellFormedIffTail<T>(a: seq<Node<T>>, n: nat, d: T)
    requires WellFormed(a) && n < |a|
    ensures WellFormed(InsertAfter(a, n, d).arena) <==> a[n].next.None?
  {
    var r := InsertAfter(a, n, d);
    if a[n].next.Some? {
      var s := a[n].next.value;
      assert r.arena[s].prev == Some(n);
      assert r.arena[n].next == Some(r.node) && r.node != s;
      assert !Linked(r.arena);
    } else {
      var b := r.arena;
      forall i, j | 0 <= i < |b| && 0 <= j < |b|
        ensures b[i].next == Some(j) <==> b[j].prev == Some(i)
      {
        if i == r.node || j == r.node {
        } else {
          assert b[j].prev == a[j].prev;
          if i != n {
            assert b[i] == a[i];
          }
        }
      }
    }
  }

  /** In a chain the head of every node is node 0. */
  lemma {:induction false} ChainHead<T>(a: seq<Node<T>>, i: nat)
    requires Chain(a) && i < |a|
    ensures Head(a, Some(i)) == Some(0)
  {
    if i > 0 {
      ChainHead(a, i - 1);
    }
  }

  /** In a chain the tail of every node is the last arena node. */
  lemma {:induction false} ChainLast<T>(a: seq<Node<T>>, i: nat)
    requires Chain(a) && i < |a|
    ensures Last(a, Some(i)) == Some(|a| - 1)
    decreases |a| - i
  {
    if i + 1 < |a| {
      ChainLast(a, i + 1);
    }
  }

  /** Walking forward from node `i` of a chain visits `i`, `i + 1`, ... up
      to the tail, each exactly once. */
  lemma {:induction false} ChainWalk<T>(a: seq<Node<T>>, i: nat)
    requires Chain(a) && i < |a|
    ensures Walk(a, i) == seq(|a| - i, k => i + k)
    decreases |a| - i
  {
    if i + 1 < |a| {
      ChainWalk(a, i + 1);
    }
  }

  /** Both walks are idempotent: the head is its own head, the tail its own tail. */
  lemma HeadLastIdempotent<T>(a: seq<Node<T>>, n: Option<nat>)
    requires Ordered(a) && ValidRef(a, n)
    ensures Head(a, Head(a, n)) == Head(a, n)
    ensures Last(a, Last(a, n)) == Last(a, n)
  {
  }

  /** After `k` tail insertions into a single created node, the head from
      any node is the created node, the tail from any node is the newest
      one, the list is well formed, and exactly `k + 1` nodes are reachable
      forward from the head, carrying the payloads in insertion order. */
  lemma TailInsertions<T>(ps: seq<T>)
    requires |ps| >= 1
    ensures WellFormed(BuildChain(ps))
    ensures forall i :: 0 <= i < |ps| ==> Head(BuildChain(ps), Some(i)) == Some(0)
    ensures forall i :: 0 <= i < |ps| ==> Last(BuildChain(ps), Some(i)) == Some(|ps| - 1)
    ensures |Walk(BuildChain(ps), 0)| == |ps|
    ensures forall k :: 0 <= k < |ps| ==> BuildChain(ps)[Walk(BuildChain(ps), 0)[k]].data == ps[k]
  {
    var a := BuildChain(ps);
    ChainIsWellFormed(a);
    forall i | 0 <= i < |ps|
      ensures Head(a, Some(i)) == Some(0) && Last(a, Some(i)) == Some(|ps| - 1)
    {
      ChainHead(a, i);
      ChainLast(a, i);
    }
    ChainWalk(a, 0);
  }
}

=== FILE: playback.dfy ===
/** The playback driver of `ugoira-play/src/main.c`: texture generation with
    its dirty flag, the filtering-mode key, pause, the per-iteration tick of
    the event loop with its playback and redraw cursors, teardown on quit,
    and the derivation of the manifest path. SDL calls are replaced by
    inputs: the tick count is a parameter and the outcome of decoding an
    image is handed to each tick. */
module Playback {
  import opened Wrappers
  import opened NodeList
  import opened Frames

  // ---------------------------------------------------------------------
  // Texture generation

  /** What decoding a frame's image yields this time: the read stream could
      not be created, the image could not be decoded, or a new texture. */
  datatype DecodeOutcome = RWopsFailed | DecodeFailed | Decoded(texture: Texture)

  /** A frame after texture generation, and the texture destroyed on the way. */
  datatype Generated = Generated(frame: Frame, destroyed: Option<Texture>)

  /** `generate_texture` as written: once the read stream exists the old
      texture is destroyed, but only a successful decode replaces the
      field, so a failed decode leaves the destroyed handle installed and
      the frame dirty. */
  function GenerateTextureAsWritten(f: Frame, o: DecodeOutcome): (r: Generated)
    ensures r.frame.(texture := f.texture, needRedraw := f.needRedraw) == f
    ensures r.frame.texture == (if o.Decoded? then Some(o.texture) else f.texture)
    ensures !r.frame.needRedraw <==> o.Decoded? || !f.needRedraw
    ensures r.destroyed == (if o.RWopsFailed? then None else f.texture)
  {
    match o
    case RWopsFailed => Generated(f, None)
    case DecodeFailed => Generated(f, f.texture)
    case Decoded(t) => Generated(f.(texture := Some(t), needRedraw := false), f.texture)
  }

  /** Texture generation with the destroy moved after a successful decode:
      a failed attempt keeps the previous texture (or none) and the dirty
      flag, so the retry the dirty flag schedules is safe; only a successful
      decode destroys the old texture, installs the new one and clears the
      flag. */
  function GenerateTexture(f: Frame, o: DecodeOutcome): (r: Generated)
    ensures r.frame.(texture := f.texture, needRedraw := f.needRedraw) == f
    ensures !o.Decoded? ==> r.frame == f && r.destroyed.None?
    ensures o.Decoded? ==> r.frame.texture == Some(o.texture) && !r.frame.needRedraw
    ensures o.Decoded? ==> r.destroyed == f.texture
  {
    match o
    case Decoded(t) => Generated(f.(texture := Some(t), needRedraw := false), f.texture)
    case _ => Generated(f, None)
  }

  /** Two failed decodes of a frame holding texture 7, as written: texture 7
      is destroyed twice and stays installed throughout. */
  lemma DecodeFailureDestroysTwice()
    ensures var f := FrameCreate().(texture := Some(Texture(7)));
      var first := GenerateTextureAsWritten(f, DecodeFailed);
      var second := GenerateTextureAsWritten(first.frame, DecodeFailed);
      && first.destroyed == Some(Texture(7))
      && second.destroyed == Some(Texture(7))
      && second.frame.texture == Some(Texture(7))
  {
  }

  /** Repeated generation attempts on one frame, collecting destroyed textures. */
  datatype Attempts = Attempts(frame: Frame, destroyed: seq<Texture>)

  function Retry(f: Frame, os: seq<DecodeOutcome>): (r: Attempts)
    decreases |os|
  {
    if os == [] then Attempts(f, [])
    else
      var g := GenerateTexture(f, os[0]);
      var rest := Retry(g.frame, os[1..]);
      Attempts(rest.frame, (if g.destroyed.Some? then [g.destroyed.value] else []) + rest.destroyed)
  }

  /** Every decoded texture is a new handle: distinct from each other and
      from the one the frame starts with. */
  predicate FreshTextures(f: Frame, os: seq<DecodeOutcome>) {
    && (forall i :: 0 <= i < |os| && os[i].Decoded? ==> f.texture != Some(os[i].texture))
    && (forall i, j :: 0 <= i < j < |os| && os[i].Decoded? && os[j].Decoded? ==>
          os[i].texture != os[j].texture)
  }

  /** The texture a frame could hold or have held: its own or a decoded one. */
  ghost predicate FromAttempts(f: Frame, os: seq<DecodeOutcome>, t: Texture) {
    f.texture == Some(t) || exists i :: 0 <= i < |os| && os[i] == Decoded(t)
  }

  /** No element of `s` occurs twice. */
  predicate NoRepeats<T(==)>(s: seq<T>) {
    forall x, y :: 0 <= x < y < |s| ==> s[x] != s[y]
  }

  /** The attempts after the first are fresh for the frame the first leaves. */
  lemma FreshAfterFirst(f: Frame, os: seq<DecodeOutcome>)
    requires FreshTextures(f, os) && os != []
    ensures FreshTextures(GenerateTexture(f, os[0]).frame, os[1..])
  {
    var g := GenerateTexture(f, os[0]);
    var tail := os[1..];
    forall i | 0 <= i < |tail| && tail[i].Decoded?
      ensures g.frame.texture != Some(tail[i].texture)
    {
      assert tail[i] == os[i + 1];
    }
    forall i, j | 0 <= i < j < |tail| && tail[i].Decoded? && tail[j].Decoded?
      ensures tail[i].texture != tail[j].texture
    {
      assert tail[i] == os[i + 1] && tail[j] == os[j + 1];
    }
  }

  /** A texture the later attempts could hold was available to all of them;
      and when the first attempt succeeds, it is not the frame's initial one. */
  lemma FromLaterAttempts(f: Frame, os: seq<DecodeOutcome>, t: Texture)
    requires FreshTextures(f, os) && os != []
    requires FromAttempts(GenerateTexture(f, os[0]).frame, os[1..], t)
    ensures FromAttempts(f, os, t)
    ensures os[0].Decoded? ==> f.texture != Some(t)
  {
    var g := GenerateTexture(f, os[0]);
    if g.frame.texture != Some(t) {
      var i :| 0 <= i < |os[1..]| && os[1..][i] == Decoded(t);
      assert os[i + 1] == Decoded(t);
    } else if f.texture != Some(t) {
      assert os[0] == Decoded(t);
    }
  }

  /** With corrected generation, however attempts succeed or fail, no
      texture is destroyed twice and the installed texture was never
      destroyed. */
  lemma {:induction false} RetryNeverDestroysTwice(f: Frame, os: seq<DecodeOutcome>)
    requires FreshTextures(f, os)
    ensures var r := Retry(f, os);
      && NoRepeats(r.destroyed)
      && (r.frame.texture.Some? ==> r.frame.texture.value !in r.destroyed)
      && (forall t :: t in r.destroyed ==> FromAttempts(f, os, t))
      && (r.frame.texture.Some? ==> FromAttempts(f, os, r.frame.texture.value))
    decreases |os|
  {
    if os != [] {
      var g := GenerateTexture(f, os[0]);
      var tail := os[1..];
      FreshAfterFirst(f, os);
      RetryNeverDestroysTwice(g.frame, tail);
      var rest := Retry(g.frame, tail);
      var r := Retry(f, os);
      forall t | t in rest.destroyed
        ensures FromAttempts(f, os, t) && (os[0].Decoded? ==> f.texture != Some(t))
      {
        FromLaterAttempts(f, os, t);
      }
      if r.frame.texture.Some? {
        FromLaterAttempts(f, os, r.frame.texture.value);
      }
      if g.destroyed.Some? {
        var prior := g.destroyed.value;
        assert r.destroyed == [prior] + rest.destroyed;
        forall x, y | 0 <= x < y < |r.destroyed|
          ensures r.destroyed[x] != r.destroyed[y]
        {
          if x == 0 {
            assert r.destroyed[y] in rest.destroyed;
          } else {
            assert r.destroyed[x] == rest.destroyed[x - 1] && r.destroyed[y] == rest.destroyed[y - 1];
          }
        }
      } else {
        assert r.destroyed == rest.destroyed;
      }
    }
  }

  // ---------------------------------------------------------------------
  // The player

  /** The loop state: the frame sequence, the playback cursor (the node to
      render next), the redraw cursor, the pause flag, the tick of the last
      advance and the render-scale hint. */
  datatype Player = Player(
    frames: FrameList,
    current: nat,
    redraw: nat,
    paused: bool,
    frameTime: nat,
    scaleHint: ByteString)

  /** The sequence is one ingested chain and both cursors point into it. */
  predicate Valid(p: Player) {
    Chain(p.frames) && p.current < |p.frames| && p.redraw < |p.frames|
  }

  /** The position `k` steps after `i` on a ring of `n` positions, `k <= n`. */
  function Advance(i: nat, k: nat, n: nat): (r: nat)
    requires i < n && k <= n
    ensures r < n
  {
    if i + k < n then i + k else i + k - n
  }

  /** A cursor step: the successor, or the head when at the tail. */
  function Successor(a: FrameList, i: nat): (r: nat)
    requires Ordered(a) && i < |a|
    ensures r < |a|
    ensures a[i].next.Some? ==> r == a[i].next.value
    ensures a[i].next.None? ==> a[r].prev.None? && BackReaches(a, i, r)
    ensures Chain(a) ==> r == Advance(i, 1, |a|)
  {
    if a[i].next.Some? then a[i].next.value else Head(a, Some(i)).value
  }

  /** The frame before `i`: its predecessor, or the tail when `i` is the head. */
  function Predecessor(a: FrameList, i: nat): (r: nat)
    requires Ordered(a) && i < |a|
    ensures r < |a|
    ensures a[i].prev.Some? ==> r == a[i].prev.value
    ensures a[i].prev.None? ==> a[r].next.None? && ForwardReaches(a, i, r)
    ensures Chain(a) ==> r == Advance(i, |a| - 1, |a|)
  {
    if a[i].prev.Some? then a[i].prev.value else Last(a, Some(i)).value
  }

  /** A stored duration of 0 means "unset" and is shown for 1000 ms. */
  function EffectiveDuration(d: u16): (r: nat)
    ensures 1 <= r < 0x1_0000
    ensures d != 0 ==> r == d
    ensures d == 0 ==> r == 1000
  {
    if d != 0 then d else 1000
  }

  /** The duration a tick consults: that of the frame before `current`,
      which is the one on screen. */
  function TickDuration(p: Player): (r: nat)
    requires Valid(p)
    ensures r >= 1
    ensures r == EffectiveDuration(p.frames[Advance(p.current, |p.frames| - 1, |p.frames|)].data.duration)
  {
    EffectiveDuration(p.frames[Predecessor(p.frames, p.current)].data.duration)
  }

  /** The advance test: not paused, and the tick count has entered a later
      duration-sized bucket than the tick of the last advance. */
  predicate Fires(p: Player, now: nat)
    requires Valid(p)
    ensures Fires(p, now) ==> !p.paused && now > p.frameTime
  {
    var d := TickDuration(p);
    BucketGrowthNeedsTime(now, p.frameTime, d);
    !p.paused && now / d > p.frameTime / d
  }

  /** A later bucket needs a later tick. */
  lemma BucketGrowthNeedsTime(now: nat, prior: nat, d: nat)
    requires d >= 1
    ensures now / d > prior / d ==> now > prior
  {
    if now <= prior {
      DivMonotone(now, prior, d);
    }
  }

  /** The redraw cursor's half of a tick: regenerate its frame if dirty.
      The frame left is the same under either generation; they differ only
      in what they destroy. */
  function RedrawAt(a: FrameList, i: nat, o: DecodeOutcome): (r: FrameList)
    requires i < |a|
    ensures |r| == |a|
    ensures forall j :: 0 <= j < |a| && j != i ==> r[j] == a[j]
    ensures r[i].prev == a[i].prev && r[i].next == a[i].next
    ensures !a[i].data.needRedraw ==> r[i] == a[i]
    ensures a[i].data.needRedraw ==> r[i].data == GenerateTexture(a[i].data, o).frame
    ensures a[i].data.needRedraw ==> r[i].data == GenerateTextureAsWritten(a[i].data, o).frame
  {
    if a[i].data.needRedraw then a[i := a[i].(data := GenerateTexture(a[i].data, o).frame)] else a
  }

  lemma RedrawKeepsChain(a: FrameList, i: nat, o: DecodeOutcome)
    requires Chain(a) && i < |a|
    ensures Chain(RedrawAt(a, i, o))
  {
    var r := RedrawAt(a, i, o);
    assert forall j :: 0 <= j < |a| ==> r[j].prev == a[j].prev && r[j].next == a[j].next;
  }

  /** A tick's result: the new state, the node rendered, if any, and the
      texture the program destroys while regenerating, if any. */
  datatype TickResult = TickResult(player: Player, shown: Option<nat>, destroyed: Option<Texture>)

  /** One pass of the loop body after the events: pick the duration of the
      frame on screen, let the redraw cursor regenerate its frame if dirty
      and step on, then, if the advance test passes, render `current`, step
      it on and remember `now` as the tick of this advance. The destroyed
      texture is the program's: once the read stream exists the old texture
      goes, even when the decode then fails and leaves it installed. */
  function Tick(p: Player, now: nat, o: DecodeOutcome): (r: TickResult)
    requires Valid(p)
    ensures Valid(r.player)
    ensures r.player.paused == p.paused && r.player.scaleHint == p.scaleHint
    ensures r.player.redraw == Advance(p.redraw, 1, |p.frames|)
    ensures r.player.frames == RedrawAt(p.frames, p.redraw, o)
    ensures Fires(p, now) ==>
              (r.shown == Some(p.current) && r.player.current == Advance(p.current, 1, |p.frames|)
               && r.player.frameTime == now)
    ensures !Fires(p, now) ==>
              (r.shown.None? && r.player.current == p.current && r.player.frameTime == p.frameTime)
    ensures r.destroyed.Some? <==> p.frames[p.redraw].data.needRedraw && !o.RWopsFailed?
                                   && p.frames[p.redraw].data.texture.Some?
    ensures r.destroyed.Some? ==> r.destroyed == p.frames[p.redraw].data.texture
    ensures r.destroyed.Some? ==>
              r.player.frames[p.redraw].data.texture == (if o.Decoded? then Some(o.texture) else r.destroyed)
  {
    var a := p.frames;
    var duration := EffectiveDuration(a[Predecessor(a, p.current)].data.duration);
    var b := RedrawAt(a, p.redraw, o);
    RedrawKeepsChain(a, p.redraw, o);
    var destroyed := if a[p.redraw].data.needRedraw then GenerateTextureAsWritten(a[p.redraw].data, o).destroyed else None;
    var q := p.(frames := b, redraw := Successor(b, p.redraw));
    if !p.paused && now / duration > p.frameTime / duration then
      TickResult(q.(current := Successor(b, p.current), frameTime := now), Some(p.current), destroyed)
    else
      TickResult(q, None, destroyed)
  }

  /** A paused one-frame player whose dirty frame holds texture 7 and whose
      decodes keep failing: two ticks destroy texture 7 twice. */
  lemma FailedTicksDestroyTwice()
    ensures var p := Player(BuildChain([FrameCreate().(texture := Some(Texture(7)))]), 0, 0, true, 0, HintLinear);
      var first := Tick(p, 1, DecodeFailed);
      var second := Tick(first.player, 2, DecodeFailed);
      && first.destroyed == Some(Texture(7))
      && second.destroyed == Some(Texture(7))
      && second.player.frames[0].data.texture == Some(Texture(7))
  {
  }

  lemma MulMonotone(x: nat, y: nat, d: nat)
    requires x <= y
    ensures x * d <= y * d
  {
  }

  lemma DivMonotone(x: nat, y: nat, d: nat)
    requires d >= 1 && x <= y
    ensures x / d <= y / d
  {
    var qx, qy := x / d, y / d;
    assert qx * d <= x;
    assert y < qy * d + d;
    if qx > qy {
      MulMonotone(qy + 1, qx, d);
    }
  }

  lemma DivPlusDivisor(x: nat, d: nat)
    requires d >= 1
    ensures (x + d) / d == x / d + 1
  {
    var q := x / d;
    assert x == q * d + x % d;
    assert x + d == (q + 1) * d + x % d;
    var q' := (x + d) / d;
    assert x + d == q' * d + (x + d) % d;
    if q' > q + 1 {
      MulMonotone(q + 2, q', d);
    }
  }

  /** Once a full duration has passed since the last advance, an unpaused
      player advances. */
  lemma FullDurationForcesFiring(p: Player, now: nat)
    requires Valid(p) && !p.paused && now >= p.frameTime + TickDuration(p)
    ensures Fires(p, now)
  {
    var d := TickDuration(p);
    DivMonotone(p.frameTime + d, now, d);
    DivPlusDivisor(p.frameTime, d);
  }

  /** One tick's inputs: the tick count and the decode outcome. */
  datatype TickInput = TickInput(now: nat, outcome: DecodeOutcome)

  /** A run of ticks with no key events in between. */
  function RunTicks(p: Player, ins: seq<TickInput>): (r: Player)
    requires Valid(p)
    ensures Valid(r) && |r.frames| == |p.frames|
    decreases |ins|
  {
    if ins == [] then p
    else
      var before := RunTicks(p, ins[..|ins| - 1]);
      Tick(before, ins[|ins| - 1].now, ins[|ins| - 1].outcome).player
  }

  /** While paused, any number of ticks leaves the playback cursor, the
      advance tick and every frame's name and links alone. */
  lemma {:induction false} PausedPlayerStays(p: Player, ins: seq<TickInput>)
    requires Valid(p) && p.paused
    ensures RunTicks(p, ins).current == p.current
    ensures RunTicks(p, ins).frameTime == p.frameTime
    ensures RunTicks(p, ins).paused
    ensures SameNamesAndLinks(p.frames, RunTicks(p, ins).frames)
    decreases |ins|
  {
    if ins != [] {
      var prefix := ins[..|ins| - 1];
      PausedPlayerStays(p, prefix);
    }
  }

  /** Every tick input decodes successfully. */
  predicate AllDecode(ins: seq<TickInput>) {
    forall k :: 0 <= k < |ins| ==> ins[k].outcome.Decoded?
  }

  /** After `k` ticks whose decodes succeed, the `k` nodes the redraw
      cursor visited are clean and the cursor is `k` nodes further on. */
  lemma {:induction false} RedrawSweep(p: Player, ins: seq<TickInput>)
    requires Valid(p) && AllDecode(ins) && |ins| <= |p.frames|
    ensures |RunTicks(p, ins).frames| == |p.frames|
    ensures RunTicks(p, ins).redraw == Advance(p.redraw, |ins|, |p.frames|)
    ensures forall j :: 0 <= j < |ins| ==>
              !RunTicks(p, ins).frames[Advance(p.redraw, j, |p.frames|)].data.needRedraw
    decreases |ins|
  {
    if ins != [] {
      var prefix := ins[..|ins| - 1];
      assert AllDecode(prefix) by {
        forall k | 0 <= k < |prefix| ensures prefix[k].outcome.Decoded? {
          assert prefix[k] == ins[k];
        }
      }
      RedrawSweep(p, prefix);
      var before := RunTicks(p, prefix);
      var n := |p.frames|;
      var last := ins[|ins| - 1];
      var after := Tick(before, last.now, last.outcome).player;
      assert after == RunTicks(p, ins);
      assert before.redraw == Advance(p.redraw, |prefix|, n);
      forall j | 0 <= j < |ins|
        ensures !after.frames[Advance(p.redraw, j, n)].data.needRedraw
      {
        if j < |prefix| {
          assert Advance(p.redraw, j, n) != before.redraw;
        }
      }
    }
  }

  /** The amortised re-decode: one tick per frame, every decode succeeding,
      leaves every frame clean, wherever the redraw cursor started. */
  lemma RedrawCycleCleansAll(p: Player, ins: seq<TickInput>)
    requires Valid(p) && AllDecode(ins) && |ins| == |p.frames|
    ensures forall i :: 0 <= i < |p.frames| ==> !RunTicks(p, ins).frames[i].data.needRedraw
  {
    RedrawSweep(p, ins);
    var n := |p.frames|;
    forall i | 0 <= i < n
      ensures !RunTicks(p, ins).frames[i].data.needRedraw
    {
      var j := if i >= p.redraw then i - p.redraw else i + n - p.redraw;
      assert Advance(p.redraw, j, n) == i;
    }
  }

  // ---------------------------------------------------------------------
  // Keys

  /** The two values of the render-scale-quality hint: nearest-pixel and linear filtering. */
  const HintNearest: ByteString := Ascii("0")
  const HintLinear: ByteString := Ascii("1")

  /** `switch_filtering_mode`: "1" becomes "0", anything else becomes "1".
      The hint is compared byte for byte, as `strcmp` does. */
  function SwitchFilteringMode(hint: ByteString): (r: ByteString)
    ensures r == HintNearest || r == HintLinear
    ensures r == HintLinear <==> hint != HintLinear
  {
    assert HintNearest[0] != HintLinear[0];
    if hint == HintLinear then HintNearest else HintLinear
  }

  lemma SwitchFilteringModeInvolution(hint: ByteString)
    requires hint == HintNearest || hint == HintLinear
    ensures SwitchFilteringMode(SwitchFilteringMode(hint)) == hint
  {
  }

  /** Set the dirty flag of every frame from `n` to the tail. */
  function MarkDirtyFrom(a: FrameList, n: Option<nat>): (r: FrameList)
    requires Ordered(a) && ValidRef(a, n)
    ensures |r| == |a|
    ensures forall i :: 0 <= i < |a| ==> r[i].prev == a[i].prev && r[i].next == a[i].next
    ensures forall i :: 0 <= i < |a| ==> r[i].data == a[i].data.(needRedraw := r[i].data.needRedraw)
    ensures forall i :: 0 <= i < |a| && n.Some? && ForwardReaches(a, n.value, i) ==> r[i].data.needRedraw
    ensures forall i :: 0 <= i < |a| && !(n.Some? && ForwardReaches(a, n.value, i)) ==> r[i] == a[i]
    decreases if n.Some? then |a| - n.value else 0
  {
    if n.None? then a
    else
      var i := n.value;
      var marked := a[i := a[i].(data := a[i].data.(needRedraw := true))];
      assert forall j :: 0 <= j < |a| ==> marked[j].prev == a[j].prev && marked[j].next == a[j].next;
      var r := MarkDirtyFrom(marked, a[i].next);
      assert forall j :: 0 <= j < |a| && ForwardReaches(a, i, j) ==> r[j].data.needRedraw by {
        forall j | 0 <= j < |a| && ForwardReaches(a, i, j)
          ensures r[j].data.needRedraw
        {
          if j == i {
            assert r[j] == marked[j];
          } else {
            ForwardReachesSameLinks(a, marked, a[i].next.value, j);
          }
        }
      }
      assert forall j :: 0 <= j < |a| && !ForwardReaches(a, i, j) ==> r[j] == a[j] by {
        forall j | 0 <= j < |a| && !ForwardReaches(a, i, j)
          ensures r[j] == a[j]
        {
          if a[i].next.Some? {
            ForwardReachesSameLinks(a, marked, a[i].next.value, j);
          }
        }
      }
      r
  }

  lemma {:induction false} ForwardReachesSameLinks(a: FrameList, b: FrameList, from: nat, to: nat)
    requires Ordered(a) && from < |a| && |a| == |b|
    requires forall j :: 0 <= j < |a| ==> a[j].next == b[j].next && a[j].prev == b[j].prev
    ensures Ordered(b)
    ensures ForwardReaches(a, from, to) == ForwardReaches(b, from, to)
    decreases |a| - from
  {
    if from != to && a[from].next.Some? {
      ForwardReachesSameLinks(a, b, a[from].next.value, to);
    }
  }

  lemma {:induction false} ChainReachesForward(a: FrameList, i: nat, j: nat)
    requires Chain(a) && Ordered(a) && i <= j < |a|
    ensures ForwardReaches(a, i, j)
    decreases j - i
  {
    if i < j {
      assert a[i].next == Some(i + 1);
      ChainReachesForward(a, i + 1, j);
    }
  }

  /** Key 'a': switch the filtering mode, reset the redraw cursor to the
      playback cursor and mark every frame of the sequence dirty. */
  function PressScaleKey(p: Player): (r: Player)
    requires Valid(p)
    ensures Valid(r)
    ensures r.scaleHint == SwitchFilteringMode(p.scaleHint)
    ensures r.redraw == p.current
    ensures r.current == p.current && r.paused == p.paused && r.frameTime == p.frameTime
    ensures |r.frames| == |p.frames|
    ensures forall i :: 0 <= i < |p.frames| ==> r.frames[i].data.needRedraw
    ensures forall i :: 0 <= i < |p.frames| ==>
              r.frames[i] == p.frames[i].(data := p.frames[i].data.(needRedraw := true))
  {
    MarkAllDirty(p.frames, p.current);
    var marked := MarkDirtyFrom(p.frames, Head(p.frames, Some(p.current)));
    p.(frames := marked, redraw := p.current, scaleHint := SwitchFilteringMode(p.scaleHint))
  }

  /** Marking from the head of a chain marks every frame and keeps the chain. */
  lemma MarkAllDirty(a: FrameList, i: nat)
    requires Chain(a) && i < |a|
    ensures Ordered(a) && Head(a, Some(i)) == Some(0)
    ensures var marked := MarkDirtyFrom(a, Some(0));
      && Chain(marked) && |marked| == |a|
      && forall j :: 0 <= j < |a| ==> marked[j] == a[j].(data := a[j].data.(needRedraw := true))
  {
    ChainIsWellFormed(a);
    ChainHead(a, i);
    var marked := MarkDirtyFrom(a, Some(0));
    assert forall j :: 0 <= j < |a| ==> marked[j].data.needRedraw by {
      forall j | 0 <= j < |a| ensures marked[j].data.needRedraw {
        ChainReachesForward(a, 0, j);
      }
    }
    assert Chain(marked) by {
      assert forall j :: 0 <= j < |a| ==> marked[j].prev == a[j].prev && marked[j].next == a[j].next;
    }
  }

  /** The space key toggles pause and changes nothing else. */
  function PressSpace(p: Player): (r: Player)
    ensures r.paused == !p.paused
    ensures r.(paused := p.paused) == p
  {
    p.(paused := !p.paused)
  }

  datatype Key = KeyQ | KeyA | KeySpace | OtherKey

  /** What a key release leads to: a new state, or a quit request. */
  datatype KeyOutcome = Continue(player: Player) | QuitRequested

  /** A key release: ignored with any modifier held; 'q' requests quit,
      'a' switches filtering, space toggles pause. */
  function HandleKeyUp(p: Player, key: Key, modifiersHeld: bool): (r: KeyOutcome)
    requires Valid(p)
    ensures modifiersHeld ==> r == Continue(p)
    ensures r.QuitRequested? <==> !modifiersHeld && key == KeyQ
    ensures r.Continue? ==> Valid(r.player)
    ensures !modifiersHeld && key == KeyA ==> r == Continue(PressScaleKey(p))
    ensures !modifiersHeld && key == KeySpace ==> r == Continue(p.(paused := !p.paused))
    ensures !modifiersHeld && key == OtherKey ==> r == Continue(p)
  {
    if modifiersHeld then Continue(p)
    else match key
      case KeyQ => QuitRequested
      case KeyA => Continue(PressScaleKey(p))
      case KeySpace => Continue(PressSpace(p))
      case OtherKey => Continue(p)
  }

  // ---------------------------------------------------------------------
  // Quit

  /** What quitting releases for one node: `frame_destroy` of its frame,
      then the node itself. */
  datatype NodeRelease = NodeRelease(node: nat, frame: seq<Resource>)

  /** The releases for nodes 0 .. k-1, in that order. */
  function QuitLog(a: FrameList, k: nat): (r: seq<NodeRelease>)
    requires k <= |a|
    ensures |r| == k
    decreases k
  {
    if k == 0 then [] else QuitLog(a, k - 1) + [NodeRelease(k - 1, FrameDestroy(a[k - 1].data))]
  }

  /** Entry `i` of the log is node `i` with the releases of its frame. */
  lemma {:induction false} QuitLogEntries(a: FrameList, k: nat)
    requires k <= |a|
    ensures forall i :: 0 <= i < k ==> QuitLog(a, k)[i] == NodeRelease(i, FrameDestroy(a[i].data))
    decreases k
  {
    if k > 0 {
      QuitLogEntries(a, k - 1);
      var r := QuitLog(a, k);
      assert r == QuitLog(a, k - 1) + [NodeRelease(k - 1, FrameDestroy(a[k - 1].data))];
      forall i | 0 <= i < k
        ensures r[i] == NodeRelease(i, FrameDestroy(a[i].data))
      {
        if i < k - 1 {
          assert r[i] == QuitLog(a, k - 1)[i];
        }
      }
    }
  }

  /** The quit handler: rewind to the head, then destroy each frame and free
      its node, following `next` until NULL. Every node is freed exactly
      once, head to tail, and with it everything its frame owns, each
      resource exactly once. */
  method Quit(p: Player) returns (freed: seq<NodeRelease>)
    requires Valid(p)
    ensures |freed| == |p.frames|
    ensures forall i :: 0 <= i < |freed| ==> freed[i].node == i
    ensures forall i, w :: 0 <= i < |freed| ==>
              multiset(freed[i].frame)[w] == if Owns(p.frames[i].data, w) then 1 else 0
  {
    var a := p.frames;
    ChainHead(a, p.current);
    var cur := Head(a, Some(p.current));
    freed := [];
    while cur.Some?
      invariant |freed| <= |a|
      invariant cur == (if |freed| < |a| then Some(|freed|) else None)
      invariant freed == QuitLog(a, |freed|)
      decreases |a| - |freed|
    {
      var i := cur.value;
      freed := freed + [NodeRelease(i, FrameDestroy(a[i].data))];
      assert a[i].next == (if i + 1 == |a| then None else Some(i + 1));
      cur := a[i].next;
    }
    QuitLogEntries(a, |a|);
  }

  // ---------------------------------------------------------------------
  // The manifest path

  /** The size of the path buffer. */
  const NameLen: nat := 1024

  /** A buffer read as a C string: everything before the first NUL. */
  function CString(buf: ByteString): (r: ByteString)
    ensures 0 !in r
    decreases |buf|
  {
    if buf == [] || buf[0] == 0 then [] else [buf[0]] + CString(buf[1..])
  }

  lemma {:induction false} CStringStopsAtNul(s: ByteString, rest: ByteString)
    requires 0 !in s && rest != [] && rest[0] == 0
    ensures CString(s + rest) == s
    decreases |s|
  {
    if s != [] {
      assert (s + rest)[1..] == s[1..] + rest;
      CStringStopsAtNul(s[1..], rest);
    } else {
      assert s + rest == rest;
    }
  }

  /** The manifest path derived from the archive path: copy it into a
      1024-byte buffer, NUL-padded, then write the five bytes ".json" over
      its last four bytes and its terminator. The length check
      aborts (`None`) when the path and its terminator do not fit below
      the buffer size; the write needs at least four bytes before it. */
  function JsonFilename(filename: ByteString): (r: Option<ByteString>)
    requires |filename| >= 4 && 0 !in filename
    ensures r.Some? <==> |filename| + 1 < NameLen
    ensures r.Some? ==> r.value == filename[..|filename| - 4] + Ascii(".json")
  {
    var len := |filename| + 1;
    var suffix := Ascii(".json");
    if len >= NameLen then None
    else
      var buf := filename + seq(NameLen - |filename|, _ => 0);
      var written := buf[..len - 5] + suffix + buf[len..];
      assert written == (filename[..|filename| - 4] + suffix) + buf[len..];
      assert 0 !in filename[..|filename| - 4] + suffix by {
        assert forall c :: c in filename[..|filename| - 4] ==> c in filename;
      }
      CStringStopsAtNul(filename[..|filename| - 4] + suffix, buf[len..]);
      Some(CString(written))
  }
}

=== FILE: wrappers.dfy ===
/** The optional and fallible values used throughout the model: `Option`
    stands in for a nullable pointer, `Result` for an operation that can abort. */
module Wrappers {

  /** A nullable reference: `None` is C's NULL. */
  datatype Option<+T> = None | Some(value: T)

  /** The outcome of an operation that either produces a value or stops with an error. */
  datatype Result<+R, +E> = Success(value: R) | Failure(error: E)
}
